=== FILE: README.md ===
# video-navigator core, modelled in Dafny

This project models the bookkeeping core of video-navigator, a web app that builds a
chaptered overview of a YouTube video and follows playback chapter by chapter.

- **Proxy pool** (`proxy_manager.dfy`, module `ProxyManager`). This is the outbound-proxy
  pool the backend uses: a list of `(address, latency)` entries kept sorted by latency,
  plus a blacklist of addresses. Three operations change it:
  - `update_proxy_list` replaces the pool with the candidates whose probe succeeded and
    blacklists every other fetched line;
  - `get_proxy` hands out the fastest entry, refreshing once when the pool is empty;
  - `remove_and_update_proxy` evicts and blacklists an address, then refreshes when fewer
    than five entries remain.

  The pool is a class, `ProxyPool`, whose methods update its fields in place. Each method is
  proved equal to a function of the old state (`Refreshed`, `Evicted`, `Reported`), and the
  properties are proved about those functions. The two files the pool writes through to are
  modelled as the text they hold. Both line encodings are proved to round-trip.
- **Video-overview helpers** (`video_overview_services.dfy`, module `VideoOverviewServices`):
  - whitespace normalisation of transcript text;
  - `HH:MM:SS` timestamps;
  - extraction of the "Chapters:" section of a video description;
  - truncation of error details;
  - the two usage counters: the global model-call budget and the per-client rate limit. The
    counters are a class over the two database tables, held as maps.
- **The overview prompt** (`video_overview.dfy`, module `VideoOverview`). This covers the
  system prompt built from chapter titles, the joined transcript, and the testing-mode caps.
- **Time display** (`format_time.dfy`, module `FormatTime`). This is the frontend's
  `formatTime`.
- **Current chapter** (`chapter_index.dfy`, module `ChapterIndex`). This is the rule the video
  page uses to pick the chapter that a playback time falls in.
- **Settings** (`config.dfy`, module `Config`). This covers the environment-file choice, the
  dotenv load, `is_prod` and the allowed CORS origins. The process environment and each
  dotenv file are input maps.
- **Shared pieces.** `strings.dfy` (module `Strings`) holds Python's `strip`, `split`, `join`
  and decimal numerals. `results.dfy` (module `Results`) holds `Option` and `Result`.

Network calls, probes and database reads are inputs to the model:
- a `Fetch` is the downloaded candidate list, or the `RequestException`;
- there is one `Probe` per probed candidate, in submission order, which is the order
  `executor.map` returns;
- the table rows are maps.

A Python exception that the code does not catch is an `Err` value or a `false` result. The one exception is the constructor: it `requires` the working-proxies file to parse (see "Left out").

## Model

| member | source | states |
|---|---|---|
| ProxyManager.FirstDoubleSlash | backend/app/video_overview/proxy_manager.py:117-119 | the position `split("//")` cuts at is the leftmost "//"; there is none exactly when the text has no "//" |
| ProxyManager.AddressRoundTrip | backend/app/video_overview/proxy_manager.py:117-119 | reading `split("//")[1]` out of the descriptor built for an address without "//" gives that address back |
| ProxyManager.AddressCutAtSlashes | backend/app/video_overview/proxy_manager.py:117-119 | an address of the form `a//b` is read back as only `a` |
| ProxyManager.AddressOf | backend/app/video_overview/proxy_manager.py:117-119 | defines the address read out of a descriptor; `ProxyManager.AddressRoundTrip` and `ProxyManager.AddressCutAtSlashes` prove what it returns |
| ProxyManager.PoolAddress | backend/app/video_overview/proxy_manager.py:82-86 | a working candidate line without "//" enters the pool as the line itself |
| ProxyManager.FetchedLines | backend/app/video_overview/proxy_manager.py:60 | the stripped body split on newlines is never an empty list, and no line contains a newline |
| ProxyManager.NotBlacklisted | backend/app/video_overview/proxy_manager.py:61-65 | a line is kept exactly when it was fetched and is not blacklisted, and no more lines come out than went in |
| ProxyManager.NotBlacklistedAppend | backend/app/video_overview/proxy_manager.py:61-65 | the filter distributes over concatenation, so it keeps the surviving lines in fetched order and with their repetitions |
| ProxyManager.CandidatesFromLines | backend/app/video_overview/proxy_manager.py:61-66 | the probed candidates are exactly the first `min(n, max_proxies_to_test)` of the `n` non-blacklisted lines, in fetched order |
| ProxyManager.Candidates | backend/app/video_overview/proxy_manager.py:61-66 | defines the candidate list: the non-blacklisted lines cut to `max_proxies_to_test`; `ProxyManager.CandidatesFromLines` proves what it holds |
| ProxyManager.WorkingEntries | backend/app/video_overview/proxy_manager.py:82-86 | `zip` keeps no more entries than there are candidates or probe results |
| ProxyManager.WorkingEntriesMembers | backend/app/video_overview/proxy_manager.py:82-86 | an entry is kept exactly when some candidate's probe at the same position worked, and the entry carries that probe's latency |
| ProxyManager.WorkingEntriesAppend | backend/app/video_overview/proxy_manager.py:82-86 | when the first candidates and probes have the same length, the comprehension over the joined lists is the two results joined: order and repetitions follow the candidates |
| ProxyManager.InsertByLatencySorted | backend/app/video_overview/proxy_manager.py:88 | inserting into a list sorted by latency keeps it sorted and adds exactly that entry (a multiset equality) |
| ProxyManager.SortByLatencySorted | backend/app/video_overview/proxy_manager.py:88 | the sort by latency returns a sorted permutation of its input |
| ProxyManager.SortByLatencyStable | backend/app/video_overview/proxy_manager.py:88 | the sort is stable: for each latency, the entries with it keep their input order |
| ProxyManager.SortByLatency | backend/app/video_overview/proxy_manager.py:88 | defines the stable sort by latency (an insertion sort); `ProxyManager.SortByLatencySorted` and `ProxyManager.SortByLatencyStable` prove it sorted, a permutation and stable |
| ProxyManager.SortedHeadLeast | backend/app/video_overview/proxy_manager.py:101-102 | the head of a sorted pool has the least latency, so it is the fastest proxy |
| ProxyManager.RefreshSorted | backend/app/video_overview/proxy_manager.py:88 | after a successful update the pool is sorted by latency |
| ProxyManager.RefreshWorkingSet | backend/app/video_overview/proxy_manager.py:82-86 | after a successful update the pool holds exactly the probed candidates whose probe worked, each with its own probe's latency, as the same multiset (repetitions included) as the comprehension produces; the old pool plays no part |
| ProxyManager.RefreshReplacesPool | backend/app/video_overview/proxy_manager.py:82-86 | whatever the old pool held, an update whose only fetched line works leaves just that line in the pool |
| ProxyManager.Refreshed | backend/app/video_overview/proxy_manager.py:52-97 | defines the state after `update_proxy_list`; the `Refresh…` lemmas prove its pool, blacklist and invariants |
| ProxyManager.RefreshFromFreshLines | backend/app/video_overview/proxy_manager.py:61-86 | after an update, at most `max_proxies_to_test` entries remain and every pool address comes from a fetched, previously unblacklisted line (the line itself when no line has "//") |
| ProxyManager.RefreshBlacklist | backend/app/video_overview/proxy_manager.py:92-95 | the blacklist only grows, and it grows by exactly the fetched lines that did not become pool addresses, unprobed lines included; with "//"-free lines no pool address is blacklisted |
| ProxyManager.SlashedLineBreaksDisjointness | backend/app/video_overview/proxy_manager.py:82-94 | the "//"-free condition is needed: with `a` blacklisted, a working line `a//b` puts the blacklisted `a` into the pool |
| ProxyManager.ReplenishScenario | backend/app/video_overview/proxy_manager.py:52-97 | from an empty pool, fetching two lines of which only the first answers gives a pool of the first line with its latency and a blacklist of the second |
| ProxyManager.TrimmedBodyLines | backend/app/video_overview/proxy_manager.py:60 | a body made of trimmed text and newline-free lines is fetched as exactly those lines |
| ProxyManager.FetchedTrimmed | backend/app/video_overview/proxy_manager.py:60 | only the body as a whole is stripped: a trimmed body splits as it is |
| ProxyManager.LinesRoundTrip | backend/app/video_overview/proxy_manager.py:60 | newline-free lines joined with newlines split back into the same lines |
| ProxyManager.WithoutAddressMembers | backend/app/video_overview/proxy_manager.py:122-124 | eviction keeps exactly the entries with a different address, and never adds one |
| ProxyManager.WithoutAddressAppend | backend/app/video_overview/proxy_manager.py:122-124 | eviction distributes over concatenation, so survivors keep their order and repetitions |
| ProxyManager.WithoutAbsentAddress | backend/app/video_overview/proxy_manager.py:122-124 | evicting an address the pool does not hold leaves the pool exactly as it was |
| ProxyManager.WithoutAddress | backend/app/video_overview/proxy_manager.py:122-124 | defines the eviction comprehension; `ProxyManager.WithoutAddressMembers`, `ProxyManager.WithoutAddressAppend`, `ProxyManager.WithoutAbsentAddress`, `ProxyManager.WithoutAddressSorted` and `ProxyManager.WithoutAddressIdempotent` prove what it keeps, in what order, and that it keeps the pool sorted |
| ProxyManager.WithoutAddressSorted | backend/app/video_overview/proxy_manager.py:122-124 | eviction keeps the survivors in order, so a sorted pool stays sorted |
| ProxyManager.WithoutAddressIdempotent | backend/app/video_overview/proxy_manager.py:122-124 | evicting an address twice is the same as evicting it once |
| ProxyManager.EvictedAddress | backend/app/video_overview/proxy_manager.py:122-125 | after an eviction the address is out of the pool and in the blacklist, the blacklist only grew, and pool/blacklist disjointness is kept |
| ProxyManager.Evicted | backend/app/video_overview/proxy_manager.py:122-125 | defines the state after the eviction step; `ProxyManager.EvictedAddress` proves what changes |
| ProxyManager.ReportTwice | backend/app/video_overview/proxy_manager.py:115-134 | reporting the same address twice ends in the state the first report left, when the first report leaves at least 5 entries without refreshing, whatever the repeat would fetch |
| ProxyManager.ReportTwiceAfterRefresh | backend/app/video_overview/proxy_manager.py:115-134 | the same when the first report dropped below 5 entries and its refresh (of "//"-free lines) brought the pool back to at least 5: the blacklisted address stays out of the pool, so the repeat changes nothing; a working `a//b` line breaks this (`ProxyManager.SlashedLineBreaksDisjointness`) |
| ProxyManager.Reported | backend/app/video_overview/proxy_manager.py:115-134 | defines the state after `remove_and_update_proxy` for a readable address; `ProxyManager.ReportTwice` and `ProxyManager.ReportKeepsConsistent` prove its properties |
| ProxyManager.RefreshKeepsConsistent | backend/app/video_overview/proxy_manager.py:52-97 | an update keeps the pool sorted and disjoint from the blacklist, for fetched lines without "//" |
| ProxyManager.ReportKeepsConsistent | backend/app/video_overview/proxy_manager.py:115-134 | eviction, update and a whole report each keep the pool sorted and disjoint from the blacklist |
| ProxyManager.EncodeBlacklist | backend/app/video_overview/proxy_manager.py:31-34 | the write loop leaves one line per blacklisted address, each address once, followed by one final empty piece |
| ProxyManager.LoadEncodedBlacklist | backend/app/video_overview/proxy_manager.py:24-29 | a file of that shape loads as the blacklist with its blank members dropped and the rest stripped |
| ProxyManager.LoadBlacklist | backend/app/video_overview/proxy_manager.py:24-29 | defines `load_blacklist`; `ProxyManager.LoadEncodedBlacklist` and `ProxyManager.BlacklistRoundTrip` prove what it reads back |
| ProxyManager.BlacklistRoundTrip | backend/app/video_overview/proxy_manager.py:24-34 | a saved and reloaded blacklist of non-empty trimmed addresses is the same set |
| ProxyManager.EntryLine | backend/app/video_overview/proxy_manager.py:50 | defines one `f"{proxy},{time_taken}"` line; `ProxyManager.EntryLineTrimmed` and `ProxyManager.EntryLineFields` prove it is one trimmed line that parses back |
| ProxyManager.EncodeEntries | backend/app/video_overview/proxy_manager.py:47-50 | defines the file text the write loop produces; `ProxyManager.EncodeWorkingProxies` proves the loop computes it and `ProxyManager.WorkingProxiesRoundTrip` that it loads back |
| ProxyManager.EntryLineTrimmed | backend/app/video_overview/proxy_manager.py:40 | one saved `address,latency` line is a single non-empty line with nothing to strip |
| ProxyManager.EntryLineFields | backend/app/video_overview/proxy_manager.py:40 | one saved `address,latency` line parses back as its entry |
| ProxyManager.EncodeWorkingProxies | backend/app/video_overview/proxy_manager.py:47-50 | the write loop produces one `address,latency` line per entry, in pool order, and that text loads back as the same list when no address holds a ',', a newline, a carriage return or leading whitespace |
| ProxyManager.WorkingProxiesRoundTrip | backend/app/video_overview/proxy_manager.py:36-50 | a saved pool of well-formed addresses (no ',', newline, carriage return or leading whitespace) loads back as the same list, order and latencies included |
| ProxyManager.LoadWorkingProxies | backend/app/video_overview/proxy_manager.py:36-45 | defines `load_working_proxies`; `ProxyManager.WorkingProxiesRoundTrip` and `ProxyManager.LoadRejectsLineWithoutComma` prove what it reads back and when it fails |
| ProxyManager.ParseEntryLine | backend/app/video_overview/proxy_manager.py:40 | defines the parse of one stripped line: fewer than two comma fields raise `IndexError`, a latency that is no numeral raises `ValueError`; `ProxyManager.EntryLineFields`, `ProxyManager.LoadRejectsLineWithoutComma` and `ProxyManager.LoadRejectsBadLatency` prove each outcome |
| ProxyManager.DecodeEntries | backend/app/video_overview/proxy_manager.py:38-43 | defines the comprehension over the file's lines: blank lines skipped, the first bad line raises; `ProxyManager.WorkingProxiesRoundTrip` proves saved pools decode back |
| ProxyManager.LoadRejectsLineWithoutComma | backend/app/video_overview/proxy_manager.py:40 | one non-blank line without a comma makes the whole load fail with `IndexError` instead of being skipped |
| ProxyManager.LoadRejectsBadLatency | backend/app/video_overview/proxy_manager.py:40 | a non-blank `address,latency` line whose latency is no numeral makes the whole load fail with `ValueError` |
| ProxyManager.ProxyPool.constructor | backend/app/video_overview/proxy_manager.py:17-22 | the pool and the blacklist are what the two files load as, and a missing file is an empty pool or blacklist |
| ProxyManager.ProxyPool.SaveBlacklist | backend/app/video_overview/proxy_manager.py:31-34 | afterwards the blacklist file exists and, when no address holds a newline or carriage return, reloads as the current blacklist |
| ProxyManager.ProxyPool.SaveWorkingProxies | backend/app/video_overview/proxy_manager.py:47-50 | afterwards the working-proxies file holds the encoding of the current pool |
| ProxyManager.ProxyPool.UpdateProxyList | backend/app/video_overview/proxy_manager.py:52-97 | the new pool and blacklist are the refresh of the old ones; a failed fetch changes nothing at all; a successful one saves both files |
| ProxyManager.ProxyPool.GetProxy | backend/app/video_overview/proxy_manager.py:99-113 | a non-empty pool returns the head's descriptor and changes nothing; an empty pool refreshes exactly once, then returns the new head's descriptor or nothing; after a successful refresh both files hold the new pool and blacklist |
| ProxyManager.ProxyPool.RemoveAndUpdateProxy | backend/app/video_overview/proxy_manager.py:115-134 | fails, changing nothing, when the descriptor has no "//"; otherwise evicts and blacklists the address, saves the blacklist, and refreshes (saving the pool) exactly when fewer than 5 entries remain |
| VideoOverviewServices.CollapseSpaces | backend/app/video_overview/video_overview_services.py:22 | after `re.sub(r"\s+", " ", …)` the only whitespace is ' ', and no two whitespace characters are adjacent |
| VideoOverviewServices.CollapseKeepsFirst | backend/app/video_overview/video_overview_services.py:22 | a non-whitespace first character survives collapsing |
| VideoOverviewServices.CollapseKeepsLast | backend/app/video_overview/video_overview_services.py:22 | a non-whitespace last character survives collapsing |
| VideoOverviewServices.ReplaceNewlines | backend/app/video_overview/video_overview_services.py:24 | replacing newlines keeps the length and leaves no newline |
| VideoOverviewServices.ReplaceNewlinesIdentity | backend/app/video_overview/video_overview_services.py:24 | after collapsing, the newline replacement has nothing left to replace |
| VideoOverviewServices.NormalizeSpacing | backend/app/video_overview/video_overview_services.py:18-25 | the output has no leading or trailing whitespace, no newline, and no whitespace but single spaces |
| VideoOverviewServices.NormalizeIsJoinWords | backend/app/video_overview/video_overview_services.py:18-25 | the output is the text's whitespace-separated words joined by single spaces |
| VideoOverviewServices.NormalizeIdempotent | backend/app/video_overview/video_overview_services.py:18-25 | normalising twice is the same as normalising once |
| VideoOverviewServices.NormalizeKeepsNonSpace | backend/app/video_overview/video_overview_services.py:18-25 | the non-whitespace characters are kept, in order, and none is added |
| VideoOverviewServices.TruncateError | backend/app/video_overview/video_overview_services.py:45 | an error of at most 100 characters is unchanged; a longer one becomes its first 100 characters followed by "..." |
| VideoOverviewServices.TruncateErrorIdempotent | backend/app/video_overview/video_overview_services.py:45 | truncating an already truncated detail changes nothing |
| VideoOverviewServices.ParseInt | backend/app/video_overview/video_overview_services.py:53 | a successful `int()` read has a non-blank text; `VideoOverviewServices.ParseIntOfInt` proves it reads back every integer written in decimal |
| VideoOverviewServices.ParseIntOfInt | backend/app/video_overview/video_overview_services.py:53 | `int(str(i)) == i` for every integer, negative ones included |
| VideoOverviewServices.TimestampNeedsTwoColons | backend/app/video_overview/video_overview_services.py:52-54 | a timestamp without exactly two colons is rejected with `ValueError` |
| VideoOverviewServices.TimestampAccepts | backend/app/video_overview/video_overview_services.py:52-54 | the parse succeeds exactly when there are three fields and each reads as an integer |
| VideoOverviewServices.TimestampOfFields | backend/app/video_overview/video_overview_services.py:52-54 | `"h:m:s"` written from any integers reads as `h*3600 + m*60 + s` |
| VideoOverviewServices.TimestampToSeconds | backend/app/video_overview/video_overview_services.py:52-54 | defines `timestamp_to_seconds`; `VideoOverviewServices.TimestampAccepts`, `VideoOverviewServices.TimestampNeedsTwoColons` and `VideoOverviewServices.TimestampOfFields` prove when it succeeds and its value |
| VideoOverviewServices.SecondsOfFields | backend/app/video_overview/video_overview_services.py:53-54 | defines `map(int, fields)` and the sum; `VideoOverviewServices.TimestampAccepts` and `VideoOverviewServices.TimestampOfFields` prove when it succeeds and its value |
| VideoOverviewServices.FindMarker | backend/app/video_overview/video_overview_services.py:74 | the search finds the leftmost "Chapters:\n" at or after the start position, or reports that there is none |
| VideoOverviewServices.ChaptersSection | backend/app/video_overview/video_overview_services.py:74 | there is no section exactly when the description has no "Chapters:\n" anywhere |
| VideoOverviewServices.LineLength | backend/app/video_overview/video_overview_services.py:78 | the greedy title group stops at the first newline or at the end of the text |
| VideoOverviewServices.IsClock | backend/app/video_overview/video_overview_services.py:78 | defines `\d{2}:\d{2}:\d{2}`; `VideoOverviewServices.ClockParses` proves every such text is accepted by `timestamp_to_seconds` |
| VideoOverviewServices.ChapterMatchAt | backend/app/video_overview/video_overview_services.py:78 | defines a match of the chapter pattern at the front of the text; `VideoOverviewServices.FindChapterMatches` and `VideoOverviewServices.ChaptersRoundTrip` prove what the scan returns |
| VideoOverviewServices.FindChapterMatches | backend/app/video_overview/video_overview_services.py:78-79 | every match has an `NN:NN:NN` timestamp and a non-empty, single-line title |
| VideoOverviewServices.ClockParses | backend/app/video_overview/video_overview_services.py:83 | every matched timestamp is accepted by `timestamp_to_seconds` and gives hours*3600 + minutes*60 + seconds of its digit pairs |
| VideoOverviewServices.ChaptersOf | backend/app/video_overview/video_overview_services.py:81-87 | the comprehension yields one chapter per match |
| VideoOverviewServices.ExtractChapters | backend/app/video_overview/video_overview_services.py:73-87 | without "Chapters:\n" the list is empty; each chapter starts between 0 and 99:99:99 and has a stripped title |
| VideoOverviewServices.ChaptersBounded | backend/app/video_overview/video_overview_services.py:81-87 | every extracted chapter starts between 0 and 99:99:99 and has a stripped title |
| VideoOverviewServices.ChaptersRoundTrip | backend/app/video_overview/video_overview_services.py:73-87 | chapters written as `HH:MM:SS title` lines under the first "Chapters:\n" are extracted back exactly, in order |
| VideoOverviewServices.UsageAfter | backend/app/video_overview/video_overview_services.py:135-151 | an admitted call sets `total_hits` to 1 when there is no row, or to one more; a refused call writes nothing; other rows are untouched |
| VideoOverviewServices.AdmittedIsBudget | backend/app/video_overview/video_overview_services.py:135-151 | of `n` successive calls exactly `min(n, budget)` are admitted: `limit - total_hits` with a row, and without one the first call always plus up to `limit` in all |
| VideoOverviewServices.UsageTables.constructor | backend/app/video_overview/video_overview_services.py:135-151 | the tables start as given |
| VideoOverviewServices.UsageTables.CheckAndUpdateApiUsage | backend/app/video_overview/video_overview_services.py:135-151 | allows exactly when there is no row or `total_hits < limit`; the usage table becomes `UsageAfter`; the rate-limit table is untouched |
| VideoOverviewServices.UsageTables.UserRateLimitExceeded | backend/app/video_overview/video_overview_services.py:104-119 | a missing or empty client address counts as exceeded; an address without a row raises `IndexError`; otherwise the limit is exceeded once `count` reaches `RATE_LIMIT` (2); header names are the lower-cased ones ASGI delivers |
| VideoOverview.ChapterDneLine | backend/app/video_overview/video_overview.py:18 | defines `chapter_dne_str`; `VideoOverview.EmptyGuideline` pins its text for the testing cap |
| VideoOverview.ChapterExistText | backend/app/video_overview/video_overview.py:20-21 | defines `chapter_exist_str`; `VideoOverview.ExistTitles` proves it lists exactly the titles, numbered from 0 |
| VideoOverview.Guideline | backend/app/video_overview/video_overview.py:26 | defines the guideline chosen by `len(chapters) == 0`; `VideoOverview.EmptyGuideline` and `VideoOverview.PromptRoundTrip` prove what each branch lists |
| VideoOverview.NumberedLines | backend/app/video_overview/video_overview.py:20 | one numbered line per chapter title |
| VideoOverview.EmptyGuideline | backend/app/video_overview/video_overview.py:18 | without chapters the guideline asks for between 3 and 5 chapters (testing mode) |
| VideoOverview.GuidelineOf | backend/app/video_overview/video_overview.py:22-29 | a guideline read out of a prompt sits between the fixed intro and outro text |
| VideoOverview.UnnumberedNumbered | backend/app/video_overview/video_overview.py:20 | removing the `"{i}: "` prefixes from the enumerated lines gives back the titles; a line without its prefix is no listing at all |
| VideoOverview.ExistTitles | backend/app/video_overview/video_overview.py:20-21 | the chapters guideline lists exactly the given titles, numbered from 0, one per line |
| VideoOverview.PromptRoundTrip | backend/app/video_overview/video_overview.py:17-30 | the prompt is the intro, the guideline and the outro; its guideline lists exactly the given newline-free chapters in order, and no chapters when the list is empty |
| VideoOverview.GetVideoOverviewPrompt | backend/app/video_overview/video_overview.py:17-30 | defines the prompt text; `VideoOverview.PromptRoundTrip` proves its guideline lists exactly the given chapters |
| VideoOverview.TranscriptSegments | backend/app/video_overview/video_overview.py:78 | each segment text sits at its offset in the joined transcript, followed by one space unless it is the last |
| VideoOverview.TranscriptText | backend/app/video_overview/video_overview.py:78 | defines the joined transcript; `VideoOverview.TranscriptSegments` proves where each segment sits in it |
| VideoOverview.TruncateTranscript | backend/app/video_overview/video_overview.py:85-90 | the transcript becomes a prefix of at most 4000 characters (testing mode), unchanged when already within the limit |
| VideoOverview.OverviewChapters | backend/app/video_overview/video_overview.py:80-83 | a `VideoMetadata` result fails with `TypeError`; a chapter list gives its titles in order, only the first 5 in testing mode |
| VideoOverview.DictsOf | backend/app/video_overview/video_overview.py:51-54 | one dict per match, in order, holding the match's timestamp text and its stripped title |
| VideoOverview.GetVideoChapters | backend/app/video_overview/video_overview.py:38-68 | defines `get_video_chapters`: no description or no "Chapters:\n" section gives `VideoMetadata`, otherwise the dicts of the matches; `VideoOverview.EndpointChapters` proves its properties |
| VideoOverview.EndpointChapters | backend/app/video_overview/video_overview.py:38-83 | the endpoint's chapter step fails exactly when there is no description or no section; otherwise its dicts match `extract_chapters` one for one, same titles, and each timestamp text reads as that chapter's seconds |
| FormatTime.JsRem | frontend/src/utils/formatTime.ts:3-4 | JavaScript's `%` by a positive number: the remainder is in [0, b) for a non-negative dividend and in (-b, 0] for a negative one |
| FormatTime.PadStart2 | frontend/src/utils/formatTime.ts:7-11 | `padStart(2, "0")` yields at least two characters, ending with the input and led by zeros |
| FormatTime.Hours | frontend/src/utils/formatTime.ts:2 | defines `Math.floor(t / 3600)`; `FormatTime.FieldsRecompose` and `FormatTime.HourFieldShown` prove its range and role |
| FormatTime.Minutes | frontend/src/utils/formatTime.ts:3 | defines `Math.floor((t % 3600) / 60)` with JavaScript's `%`; `FormatTime.FieldsRecompose` and `FormatTime.NegativePosition` prove its range |
| FormatTime.Seconds | frontend/src/utils/formatTime.ts:4 | defines `Math.floor(t % 60)` with JavaScript's `%`; `FormatTime.FieldsRecompose` and `FormatTime.NegativePosition` prove its range |
| FormatTime.FieldsRecompose | frontend/src/utils/formatTime.ts:2-4 | for t ≥ 0, minutes and seconds lie in [0, 60) and hours*3600 + minutes*60 + seconds == t |
| FormatTime.HourFieldShown | frontend/src/utils/formatTime.ts:6 | the hour field is shown exactly when t ≥ 3600 |
| FormatTime.NegativePosition | frontend/src/utils/formatTime.ts:1-13 | before zero the fields leave [0, 60): one second before the start is displayed as "-1:-1" |
| FormatTime.LongFormat | frontend/src/utils/formatTime.ts:7-9 | from one hour on the display is `H:MM:SS`, with the hours in decimal first, two-digit minutes and seconds, and reads back as t |
| FormatTime.ShortFormat | frontend/src/utils/formatTime.ts:11 | below one hour the display is `M:SS`, with the minutes in decimal first, two-digit seconds, and reads back as t |
| FormatTime.FormatRoundTrip | frontend/src/utils/formatTime.ts:1-13 | for t ≥ 0 the display has three fields exactly from one hour on, the first field is the hours or minutes in decimal, the padded fields have two digits, and it reads back as t |
| FormatTime.FormatTime | frontend/src/utils/formatTime.ts:1-13 | defines `formatTime`; `FormatTime.FormatRoundTrip`, `FormatTime.LongFormat` and `FormatTime.ShortFormat` prove its fields and that it reads back as t |
| ChapterIndex.Start | frontend/src/components/VideoPage.tsx:48 | defines a chapter's start, the first key quote's time or 0; `ChapterIndex.QuotelessFallbacks` states the fallback |
| ChapterIndex.NextStart | frontend/src/components/VideoPage.tsx:49-50 | defines the next chapter's start, or `Infinity` when there is none or it has no quote; `ChapterIndex.QuotelessFallbacks` states the fallback |
| ChapterIndex.InChapter | frontend/src/components/VideoPage.tsx:48-53 | defines the `findIndex` predicate; `ChapterIndex.LastStartedContains` and `ChapterIndex.EarlierExcluded` prove which chapter it picks for ordered starts |
| ChapterIndex.QuotelessFallbacks | frontend/src/components/VideoPage.tsx:48-53 | a chapter without key quotes contains only times ≥ 0; a chapter that is last, or whose successor has no quote, contains exactly the times at or after its start |
| ChapterIndex.FindIndex | frontend/src/components/VideoPage.tsx:47-55 | `findIndex` returns the first chapter whose start ≤ t < next start, or -1 when no chapter matches |
| ChapterIndex.CurrentChapterIndex | frontend/src/components/VideoPage.tsx:46-58 | the index is the least matching chapter, else the last one; it lies in [-1, n-1] and is -1 only for an empty list |
| ChapterIndex.LastStartedContains | frontend/src/components/VideoPage.tsx:47-55 | with ordered starts, the last chapter that has started contains the time |
| ChapterIndex.EarlierExcluded | frontend/src/components/VideoPage.tsx:47-55 | with ordered starts, no earlier chapter contains a time that a later chapter's start has reached |
| ChapterIndex.OrderedCurrentChapter | frontend/src/components/VideoPage.tsx:46-58 | with ordered starts and t at or after the first start, the current chapter is the last one whose start is ≤ t |
| ChapterIndex.OrderedBeforeFirst | frontend/src/components/VideoPage.tsx:56-58 | with ordered starts and t before the first start, the fallback picks the last chapter |
| Config.LoadDotenv | backend/app/config.py:10 | the loaded environment has the process variables plus the file's; a variable already set keeps its value, a new one takes the file's; a missing file adds nothing |
| Config.Loaded | backend/app/config.py:5-10 | defines the environment after the module runs: the chosen file loaded into the process environment; the lemmas below state what `is_prod` sees in it |
| Config.ProductionKept | backend/app/config.py:5-14 | a process started with ENVIRONMENT=production is still production after the load, whatever the files hold |
| Config.EnvFileIffProd | backend/app/config.py:5-14 | `is_prod()` after the load holds exactly when ".env.production" was chosen before it, provided the development file does not set ENVIRONMENT for a process that lacks it |
| Config.DevelopmentFileSetsProduction | backend/app/config.py:5-14 | the proviso is needed: with ENVIRONMENT unset and a development file that sets it to "production", ".env.development" is chosen yet `is_prod()` holds |
| Config.EnvFile | backend/app/config.py:5-9 | defines the file name chosen from the environment before the load; `Config.EnvFileIffProd` and `Config.ProductionKept` relate it to `is_prod` after the load |
| Config.IsProd | backend/app/config.py:13-14 | defines `is_prod()` on the environment after the load; `Config.EnvFileIffProd`, `Config.ProductionKept` and `Config.DevelopmentFileSetsProduction` state when it holds |
| Config.GetAllowedOrigins | backend/app/config.py:17-19 | there are no origins exactly when ALLOWED_ORIGINS is unset or empty |
| Config.OriginsOfValue | backend/app/config.py:19 | a non-empty value gives one origin more than it has commas, no origin holds a comma, and joining them with "," gives the value back |
| Config.OriginsRoundTrip | backend/app/config.py:19 | comma-free origins written as one comma-separated value are read back unchanged |

## Left out

- Network I/O is not modelled. The candidate download and `raise_for_status` become a `Fetch` input, and `_test_proxy` (probe URL, timeout, `time.time()` timing) becomes a `Probe` input.
- The YouTube, transcript, OpenAI, Anthropic and Supabase calls are not modelled. The two counter rules see the Supabase tables as maps.
- `incr_user_rate_limit` is not modelled: its upsert semantics live in the Supabase client.
- `get_claude_completion` is not modelled: it only maps client exceptions to HTTP errors.
- Concurrency is not modelled. The `ThreadPoolExecutor` probing is a sequential map in submission order, and `MAX_WORKERS` with the CPU count only sizes the pool.
- `print`, `tqdm` progress and logger output are not modelled.
- Files are the text they hold (`None` for a missing file). Opening, paths in the temp directory, non-atomic writes and the text layer's newline translation are not modelled; because that layer reads a '\r' back as a line break, the round-trip lemmas and `BlacklistSaved` cover only addresses without '\r' or '\n' (`ProxyManager.WellFormedAddress`).
- The singleton mechanics of `__new__` (one shared instance) are not modelled. `ProxyManager.ProxyPool.constructor` is the first construction.
- ProxyManager.ProxyPool.constructor: requires the working-proxies file to parse. When it does not, the first `ProxyManager()` raises, but `_instance` was already bound at line 19 of proxy_manager.py, so every later `ProxyManager()` returns that instance without `proxies` or `blacklist`. That half-built instance is not modelled.
- ProxyManager.ParseLatency: latencies are natural numbers written in decimal. Python's `float` text (fractions, exponents, `inf`, `nan`) and the float formatting of `f"{time_taken}"` are not modelled. Only working probes are stored, and those never carry `inf`.
- ProxyManager.ProxyPool.GetProxy: the two-decimal latency in its log line is not modelled.
- Duplicate candidate lines are not deduplicated by the code, and no uniqueness is claimed.
- Python's `int()` extras are not modelled: underscores between digits and non-ASCII decimal digits. `\d` in the chapter pattern is likewise ASCII digits only.
- FormatTime.FormatTime: positions are integers. Fractional seconds, `NaN` and infinities of a JavaScript number are not modelled. Minutes and seconds stay in [0, 60) only for t ≥ 0 (`FormatTime.NegativePosition`).
- ChapterIndex.CurrentChapterIndex: times are reals. JavaScript's `NaN` is not modelled. The React state update and rendering around the rule are not modelled.
- The `title`-unbound paths of the `except` branches are not modelled, nor the rest of `get_video_metadata` (publication date, channel, duration).
- VideoOverview.OverviewChapters: models the endpoint's title comprehension for the two results `VideoOverview.GetVideoChapters` can give; the `title`-unbound error paths of `get_video_chapters` are not modelled (above), and neither is how the web framework answers the uncaught `TypeError`.
- Config.LoadDotenv: a dotenv file is the map of variables it defines. Parsing its text (quoting, `export`, comments, `${VAR}` expansion, keys without a value) and the search for the file on disk are not modelled.
- The endpoint wiring is not modelled: FastAPI routes, schemas, client factories and the transcript `Moment` records.

=== FILE: chapter_index.dfy ===
/**
 * The "current chapter" rule of the video page (frontend/src/components/VideoPage.tsx,
 * second effect): which chapter a playback time falls in, judged by the time of each
 * chapter's first key quote. Times are JavaScript numbers, modelled as reals.
 */
module ChapterIndex {

  datatype Quote = Quote(text: string, time: real)

  datatype Chapter = Chapter(title: string, keyQuotes: seq<Quote>, keyPoints: seq<string>)

  /** An upper bound that may be `Infinity`. */
  datatype Bound = At(time: real) | Infinity

  /** `chapter.key_quotes[0]?.time ?? 0`. */
  function Start(c: Chapter): real {
    if |c.keyQuotes| > 0 then c.keyQuotes[0].time else 0.0
  }

  /** `chapters[index + 1]?.key_quotes[0]?.time ?? Infinity`. */
  function NextStart(chapters: seq<Chapter>, index: nat): Bound {
    if index + 1 < |chapters| && |chapters[index + 1].keyQuotes| > 0 then
      At(chapters[index + 1].keyQuotes[0].time)
    else Infinity
  }

  predicate Below(t: real, b: Bound) {
    match b
    case At(x) => t < x
    case Infinity => true
  }

  /** The `findIndex` predicate: `t` is at or after this chapter's start and before the next one's. */
  predicate InChapter(chapters: seq<Chapter>, index: nat, t: real)
    requires index < |chapters|
  {
    t >= Start(chapters[index]) && Below(t, NextStart(chapters, index))
  }

  /** `findIndex` from position `from`: the first chapter `t` falls in, or -1. */
  function FindIndex(chapters: seq<Chapter>, t: real, from: nat): (r: int)
    requires from <= |chapters|
    ensures r == -1 || from <= r < |chapters|
    ensures r != -1 ==> InChapter(chapters, r, t)
    ensures r != -1 ==> forall j :: from <= j < r ==> !InChapter(chapters, j, t)
    ensures r == -1 ==> forall j :: from <= j < |chapters| ==> !InChapter(chapters, j, t)
    decreases |chapters| - from
  {
    if from == |chapters| then -1
    else if InChapter(chapters, from, t) then from
    else FindIndex(chapters, t, from + 1)
  }

  /** The index the effect stores: the matching chapter, else the last one. */
  function CurrentChapterIndex(chapters: seq<Chapter>, t: real): (r: int)
    ensures -1 <= r < |chapters|
    ensures r == -1 <==> |chapters| == 0
    ensures (exists i :: 0 <= i < |chapters| && InChapter(chapters, i, t)) ==>
      0 <= r && InChapter(chapters, r, t) && forall j :: 0 <= j < r ==> !InChapter(chapters, j, t)
    ensures (forall i :: 0 <= i < |chapters| ==> !InChapter(chapters, i, t)) ==> r == |chapters| - 1
  {
    var k := FindIndex(chapters, t, 0);
    if k != -1 then k else |chapters| - 1
  }

  /**
   * The two fallbacks: a chapter without key quotes starts at 0, and a chapter that is
   * the last one, or whose successor has no key quote, has no upper end.
   */
  lemma QuotelessFallbacks(chapters: seq<Chapter>, i: nat, t: real)
    requires i < |chapters|
    ensures |chapters[i].keyQuotes| == 0 ==> (InChapter(chapters, i, t) ==> t >= 0.0)
    ensures (i + 1 == |chapters| || |chapters[i + 1].keyQuotes| == 0) ==>
      (InChapter(chapters, i, t) <==> t >= Start(chapters[i]))
  {
  }

  /** Every chapter has a quote and the first-quote times never decrease. */
  predicate Ordered(chapters: seq<Chapter>) {
    && (forall i :: 0 <= i < |chapters| ==> |chapters[i].keyQuotes| > 0)
    && (forall i, j :: 0 <= i <= j < |chapters| ==> Start(chapters[i]) <= Start(chapters[j]))
  }

  /** With ordered chapters, the last chapter that has started contains the time. */
  lemma LastStartedContains(chapters: seq<Chapter>, t: real, k: nat)
    requires Ordered(chapters)
    requires k < |chapters| && Start(chapters[k]) <= t
    requires forall j :: k < j < |chapters| ==> t < Start(chapters[j])
    ensures InChapter(chapters, k, t)
  {
    if k + 1 < |chapters| {
      assert NextStart(chapters, k) == At(Start(chapters[k + 1]));
    }
  }

  /** With ordered chapters, no earlier chapter contains a time that a later one has reached. */
  lemma EarlierExcluded(chapters: seq<Chapter>, t: real, k: nat, j: nat)
    requires Ordered(chapters)
    requires j < k < |chapters| && Start(chapters[k]) <= t
    ensures !InChapter(chapters, j, t)
  {
    assert NextStart(chapters, j) == At(Start(chapters[j + 1]));
    assert Start(chapters[j + 1]) <= Start(chapters[k]);
  }

  /**
   * With ordered chapters: from the first start on, the current chapter is the last one
   * whose start is at or before the time; before the first start, the fallback picks the
   * last chapter.
   */
  lemma OrderedCurrentChapter(chapters: seq<Chapter>, t: real, k: nat)
    requires Ordered(chapters) && |chapters| > 0
    requires k < |chapters| && Start(chapters[k]) <= t
    requires forall j :: k < j < |chapters| ==> t < Start(chapters[j])
    ensures CurrentChapterIndex(chapters, t) == k
  {
    LastStartedContains(chapters, t, k);
    forall j | 0 <= j < k
      ensures !InChapter(chapters, j, t)
    {
      EarlierExcluded(chapters, t, k, j);
    }
  }

  /** Before the first start no chapter contains the time, so the last chapter is chosen. */
  lemma OrderedBeforeFirst(chapters: seq<Chapter>, t: real)
    requires Ordered(chapters) && |chapters| > 0
    requires t < Start(chapters[0])
    ensures CurrentChapterIndex(chapters, t) == |chapters| - 1
  {
    forall i | 0 <= i < |chapters|
      ensures !InChapter(chapters, i, t)
    {
      assert Start(chapters[0]) <= Start(chapters[i]);
    }
  }
}

=== FILE: config.dfy ===
/**
 * Environment-driven settings (backend/app/config.py). The process environment is an
 * input map from variable name to value, and each dotenv file is the map of variables it
 * defines. `env_file` reads the environment before the chosen file is loaded; `is_prod`
 * and `get_allowed_origins` read it afterwards.
 */
module Config {
  import opened Results
  import opened Strings

  type Environment = map<string, string>

  const EnvironmentVar: string := "ENVIRONMENT"
  const AllowedOriginsVar: string := "ALLOWED_ORIGINS"
  const Production: string := "production"
  const ProductionEnvFile: string := ".env.production"
  const DevelopmentEnvFile: string := ".env.development"

  /** `os.environ.get(name)`. */
  function Get(env: Environment, name: string): (r: Option<string>)
    ensures r.Some? <==> name in env
    ensures r.Some? ==> r.value == env[name]
  {
    if name in env then Some(env[name]) else None
  }

  /** `is_prod()`, on the environment after the dotenv load (`Loaded`). */
  predicate IsProd(env: Environment) {
    Get(env, EnvironmentVar) == Some(Production)
  }

  /** `env_file`: the file `load_dotenv` reads, chosen from the environment before loading. */
  function EnvFile(env: Environment): string {
    if Get(env, EnvironmentVar) == Some(Production) then ProductionEnvFile else DevelopmentEnvFile
  }

  /**
   * `load_dotenv(path)` without `override`: every variable of the file that the process
   * does not already have is added; variables already set keep their value. A missing
   * file (`path !in files`) adds nothing.
   */
  function LoadDotenv(env: Environment, files: map<string, Environment>, path: string): (loaded: Environment)
    ensures loaded.Keys == env.Keys + (if path in files then files[path].Keys else {})
    ensures forall name :: name in env ==> loaded[name] == env[name]
    ensures path in files ==> forall name :: name in files[path] && name !in env ==> loaded[name] == files[path][name]
  {
    if path in files then
      var vars := files[path];
      env + map name | name in vars && name !in env :: vars[name]
    else env
  }

  /** The environment once the module has run: the chosen file loaded into the process one. */
  function Loaded(env: Environment, files: map<string, Environment>): Environment {
    LoadDotenv(env, files, EnvFile(env))
  }

  /**
   * A process started as production stays production: the production file is chosen and
   * loading it cannot replace ENVIRONMENT.
   */
  lemma ProductionKept(env: Environment, files: map<string, Environment>)
    requires EnvFile(env) == ProductionEnvFile
    ensures IsProd(Loaded(env, files))
  {
  }

  /**
   * `is_prod()` after the load agrees with the choice of file made before it, as long as
   * the development file does not itself set ENVIRONMENT for a process that lacks it.
   */
  lemma EnvFileIffProd(env: Environment, files: map<string, Environment>)
    requires EnvironmentVar in env || DevelopmentEnvFile !in files || EnvironmentVar !in files[DevelopmentEnvFile]
    ensures EnvFile(env) == ProductionEnvFile <==> IsProd(Loaded(env, files))
    ensures EnvFile(env) == DevelopmentEnvFile <==> !IsProd(Loaded(env, files))
  {
  }

  /**
   * Without that condition the two reads disagree: a process with no ENVIRONMENT whose
   * development file sets ENVIRONMENT=production loads ".env.development", yet `is_prod()`
   * then holds.
   */
  lemma DevelopmentFileSetsProduction()
    ensures var env: Environment, files := map[], map[DevelopmentEnvFile := map[EnvironmentVar := Production]];
      EnvFile(env) == DevelopmentEnvFile && IsProd(Loaded(env, files))
  {
  }

  /**
   * `get_allowed_origins()`: unset or empty means none, otherwise the comma-separated pieces.
   * `env` is the environment after the dotenv load (`Loaded`).
   */
  function GetAllowedOrigins(env: Environment): (origins: seq<string>)
    ensures origins == [] <==> AllowedOriginsVar !in env || env[AllowedOriginsVar] == []
  {
    match Get(env, AllowedOriginsVar)
    case None => []
    case Some(value) => if value == [] then [] else Split(value, ',')
  }

  /**
   * A non-empty value yields one piece more than it has commas, no piece holds a comma,
   * and joining the pieces with "," gives the value back.
   */
  lemma OriginsOfValue(env: Environment)
    requires AllowedOriginsVar in env && env[AllowedOriginsVar] != []
    ensures var value := env[AllowedOriginsVar];
      var origins := GetAllowedOrigins(env);
      && |origins| == Count(value, ',') + 1
      && (forall o :: o in origins ==> ',' !in o)
      && Join(origins, ",") == value
  {
    var value := env[AllowedOriginsVar];
    SplitCount(value, ',');
    SplitPiecesFree(value, ',');
    JoinSplit(value, ',');
  }

  /** Comma-free origins written as one comma-separated value are read back unchanged. */
  lemma OriginsRoundTrip(env: Environment, origins: seq<string>)
    requires |origins| >= 1 && (forall o :: o in origins ==> ',' !in o)
    requires Join(origins, ",") != []
    requires AllowedOriginsVar in env && env[AllowedOriginsVar] == Join(origins, ",")
    ensures GetAllowedOrigins(env) == origins
  {
    SplitJoin(origins, ',');
  }
}

=== FILE: format_time.dfy ===
/**
 * `formatTime` (frontend/src/utils/formatTime.ts): a playback position in seconds shown
 * as `H:MM:SS`, or `M:SS` below one hour. Positions are modelled as integers; the
 * JavaScript operators are written out: `Math.floor` of a quotient by a positive number
 * is Dafny's `/`, while `%` keeps the sign of the dividend.
 */
module FormatTime {
  import opened Results
  import opened Strings

  /** JavaScript's `%` for a positive divisor: the remainder has the sign of the dividend. */
  function JsRem(a: int, b: int): (r: int)
    requires b > 0
    ensures a >= 0 ==> 0 <= r < b
    ensures a < 0 ==> -b < r <= 0
  {
    if a >= 0 then a % b else -((-a) % b)
  }

  /** `Math.floor(t / 3600)`. */
  function Hours(t: int): int {
    t / 3600
  }

  /** `Math.floor((t % 3600) / 60)`. */
  function Minutes(t: int): int {
    JsRem(t, 3600) / 60
  }

  /** `Math.floor(t % 60)`. */
  function Seconds(t: int): int {
    JsRem(t, 60)
  }

  /** `s.padStart(2, "0")`. */
  function PadStart2(s: string): (r: string)
    ensures |r| == if |s| < 2 then 2 else |s|
    ensures r[|r| - |s|..] == s
    ensures forall i :: 0 <= i < |r| - |s| ==> r[i] == '0'
  {
    if |s| == 0 then "00" else if |s| == 1 then "0" + s else s
  }

  /** `formatTime(t)`. */
  function FormatTime(t: int): string {
    var hours, minutes, seconds := Hours(t), Minutes(t), Seconds(t);
    if hours > 0 then
      IntToString(hours) + ":" + PadStart2(IntToString(minutes)) + ":" + PadStart2(IntToString(seconds))
    else
      IntToString(minutes) + ":" + PadStart2(IntToString(seconds))
  }

  /* ---------------------------------------------------------------------------
   * Properties
   * ------------------------------------------------------------------------- */

  /** Division by a positive number is determined by any quotient and remainder in range. */
  lemma DivModUnique(a: int, b: int, q: int, r: int)
    requires b > 0 && 0 <= r < b && a == q * b + r
    ensures a / b == q && a % b == r
  {
    var q', r' := a / b, a % b;
    assert (q - q') * b == r' - r;
    if q > q' {
      MulAtLeast(q - q', b);
    } else if q < q' {
      MulAtLeast(q' - q, b);
    }
  }

  lemma MulAtLeast(d: int, b: int)
    requires d >= 1 && b > 0
    ensures d * b >= b
  {
  }

  /** For a non-negative position the three fields recompose it, minutes and seconds below 60. */
  lemma FieldsRecompose(t: int)
    requires t >= 0
    ensures Hours(t) >= 0
    ensures 0 <= Minutes(t) < 60 && 0 <= Seconds(t) < 60
    ensures Hours(t) * 3600 + Minutes(t) * 60 + Seconds(t) == t
  {
    var h, r := t / 3600, t % 3600;
    var m, s := r / 60, r % 60;
    assert t == (h * 60 + m) * 60 + s;
    DivModUnique(t, 60, h * 60 + m, s);
  }

  /** The hour field is shown exactly from one hour on. */
  lemma HourFieldShown(t: int)
    ensures Hours(t) > 0 <==> t >= 3600
  {
    if t >= 3600 {
      assert t / 3600 >= 3600 / 3600;
    }
  }

  /** Before zero the fields leave [0, 60): one second before the start shows as "-1:-1". */
  lemma NegativePosition()
    ensures Minutes(-1) == -1 && Seconds(-1) == -1
    ensures FormatTime(-1) == "-1:-1"
  {
    DivModUnique(-1, 3600, -1, 3599);
    DivModUnique(1, 60, 0, 1);
    DivModUnique(1, 3600, 0, 1);
    DivModUnique(-1, 60, -1, 59);
    assert IntToString(-1) == "-1";
  }

  /** A field printed as a zero-padded pair of digits. */
  lemma PaddedField(n: int)
    requires 0 <= n < 60
    ensures var f := PadStart2(IntToString(n));
      |f| == 2 && IsDigits(f) && DigitsValue(f) == n
  {
    var digits := NatToString(n);
    DigitsValueOfNat(n);
    if n < 10 {
      LeadingZero(digits);
      assert PadStart2(digits) == "0" + digits;
    } else {
      assert |NatToString(n / 10)| == 1;
    }
  }

  /** An unpadded field printed in decimal. */
  lemma PlainField(n: int)
    requires n >= 0
    ensures var f := IntToString(n);
      f != [] && IsDigits(f) && DigitsValue(f) == n
  {
    DigitsValueOfNat(n);
  }

  /** Digits are never the field separator. */
  lemma DigitsNoColon(f: string)
    requires IsDigits(f)
    ensures ':' !in f
  {
    assert forall c :: c in f ==> IsDigit(c);
  }

  /** The value of `:`-separated decimal fields read in base 60. */
  function Sexagesimal(fields: seq<string>): nat
    requires forall f :: f in fields ==> IsDigits(f)
  {
    if fields == [] then 0
    else
      assert forall f :: f in fields[..|fields| - 1] ==> f in fields;
      assert fields[|fields| - 1] in fields;
      Sexagesimal(fields[..|fields| - 1]) * 60 + DigitsValue(fields[|fields| - 1])
  }

  /** Reads a displayed time back: two or three non-empty decimal fields. */
  function ReadTime(s: string): Option<int> {
    var fields := Split(s, ':');
    if (|fields| == 2 || |fields| == 3) && forall f :: f in fields ==> f != [] && IsDigits(f) then
      Some(Sexagesimal(fields))
    else None
  }

  lemma SexagesimalThree(a: string, b: string, c: string)
    requires IsDigits(a) && IsDigits(b) && IsDigits(c)
    ensures Sexagesimal([a, b, c]) == DigitsValue(a) * 3600 + DigitsValue(b) * 60 + DigitsValue(c)
  {
    assert [a, b, c][..2] == [a, b];
    SexagesimalTwo(a, b);
  }

  lemma SexagesimalTwo(a: string, b: string)
    requires IsDigits(a) && IsDigits(b)
    ensures Sexagesimal([a, b]) == DigitsValue(a) * 60 + DigitsValue(b)
  {
    assert [a, b][..1] == [a];
    assert [a][..0] == [];
    assert Sexagesimal([a]) == DigitsValue(a);
  }

  /**
   * For a non-negative position the display has the hour field exactly from one hour on,
   * a leading field in plain decimal (hours, else minutes), two-digit minutes (with
   * hours) and seconds, and reads back as the position.
   */
  lemma FormatRoundTrip(t: int)
    requires t >= 0
    ensures var fields := Split(FormatTime(t), ':');
      && |fields| == (if t >= 3600 then 3 else 2)
      && fields[0] == IntToString(if t >= 3600 then Hours(t) else Minutes(t))
      && |fields[|fields| - 1]| == 2
      && (t >= 3600 ==> |fields[1]| == 2)
    ensures ReadTime(FormatTime(t)) == Some(t)
  {
    FieldsRecompose(t);
    HourFieldShown(t);
    if t >= 3600 {
      LongFormat(t, Hours(t), Minutes(t), Seconds(t));
    } else {
      ShortFormat(t, Minutes(t), Seconds(t));
    }
  }

  /** `H:MM:SS` splits into its three fields, hours unpadded, and reads back as the position. */
  lemma LongFormat(t: int, h: int, m: int, s: int)
    requires h == Hours(t) && m == Minutes(t) && s == Seconds(t)
    requires h > 0 && 0 <= m < 60 && 0 <= s < 60 && h * 3600 + m * 60 + s == t
    ensures var fields := Split(FormatTime(t), ':');
      |fields| == 3 && fields[0] == IntToString(h) && |fields[1]| == 2 && |fields[2]| == 2
    ensures ReadTime(FormatTime(t)) == Some(t)
  {
    var hh, mm, sec := IntToString(h), PadStart2(IntToString(m)), PadStart2(IntToString(s));
    PlainField(h);
    PaddedField(m);
    PaddedField(s);
    DigitsNoColon(hh);
    DigitsNoColon(mm);
    DigitsNoColon(sec);
    assert FormatTime(t) == hh + [':'] + mm + [':'] + sec;
    SplitThree(hh, mm, sec, ':');
    SexagesimalThree(hh, mm, sec);
  }

  /** `M:SS` splits into its two fields, minutes unpadded, and reads back as the position. */
  lemma ShortFormat(t: int, m: int, s: int)
    requires Hours(t) <= 0 && m == Minutes(t) && s == Seconds(t)
    requires 0 <= m && 0 <= s < 60 && m * 60 + s == t
    ensures var fields := Split(FormatTime(t), ':');
      |fields| == 2 && fields[0] == IntToString(m) && |fields[1]| == 2
    ensures ReadTime(FormatTime(t)) == Some(t)
  {
    var mm, sec := IntToString(m), PadStart2(IntToString(s));
    PlainField(m);
    PaddedField(s);
    DigitsNoColon(mm);
    DigitsNoColon(sec);
    assert FormatTime(t) == mm + [':'] + sec;
    SplitTwo(mm, sec, ':');
    SexagesimalTwo(mm, sec);
  }
}

=== FILE: proxy_manager.dfy ===
/**
 * The outbound-proxy pool of backend/app/video_overview/proxy_manager.py.
 *
 * The pool is a list of (address, latency) entries kept sorted by latency and a
 * blacklist of addresses. The candidate-list download and the per-candidate probe
 * are network calls; here they are oracle parameters: a `Fetch` (the body, or the
 * `RequestException`), and one `Probe` per tested candidate, aligned by position
 * (`executor.map` returns results in submission order). Durable state is the text
 * of the two files, each `None` while the file does not exist.
 */
module ProxyManager {
  import opened Results
  import opened Strings

  /** One pool entry: a "host:port" address and the latency its probe measured. */
  datatype Entry = Entry(address: string, latency: nat)

  /** The `proxies=` mapping handed to `requests`: both schemes go through one HTTP proxy. */
  datatype Descriptor = Descriptor(http: string, https: string)

  /** What `requests.get(url)` followed by `raise_for_status()` produced. */
  datatype Fetch = Fetched(body: string) | FetchFailed

  /** What `_test_proxy` reported for one candidate. */
  datatype Probe = Probe(isWorking: bool, latency: nat)

  /** The two pieces of state that the pool's methods change. */
  datatype PoolState = PoolState(proxies: seq<Entry>, blacklist: set<string>)

  /** The default of `max_proxies_to_test`, the one every caller uses. */
  const DefaultMaxToTest: nat := 500

  /** `remove_and_update_proxy` refreshes when fewer entries than this remain. */
  const LowWaterMark: nat := 5

  /* ---------------------------------------------------------------------------
   * Descriptors and Python's `text.split("//")[1]`
   * ------------------------------------------------------------------------- */

  function DescriptorFor(address: string): Descriptor {
    Descriptor("http://" + address, "http://" + address)
  }

  predicate DoubleSlashAt(s: string, i: int) {
    0 <= i && i + 1 < |s| && s[i] == '/' && s[i + 1] == '/'
  }

  predicate HasDoubleSlash(s: string) {
    exists i | 0 <= i < |s| :: DoubleSlashAt(s, i)
  }

  /** Where `str.split("//")` cuts first: the leftmost occurrence of "//". */
  function FirstDoubleSlash(s: string): (r: Option<nat>)
    ensures r.Some? ==> DoubleSlashAt(s, r.value)
    ensures r.Some? ==> forall j :: 0 <= j < r.value ==> !DoubleSlashAt(s, j)
    ensures r.None? <==> !HasDoubleSlash(s)
  {
    if |s| < 2 then None
    else if s[0] == '/' && s[1] == '/' then assert DoubleSlashAt(s, 0); Some(0)
    else
      match FirstDoubleSlash(s[1..])
      case None =>
        assert forall j :: DoubleSlashAt(s, j) ==> j > 0 && DoubleSlashAt(s[1..], j - 1);
        None
      case Some(k) =>
        assert forall j :: 0 < j <= k ==> (DoubleSlashAt(s, j) <==> DoubleSlashAt(s[1..], j - 1));
        assert DoubleSlashAt(s, k + 1);
        Some(k + 1)
  }

  /**
   * `s.split("//")[1]`: the text between the first and the second "//" (or the end).
   * `None` is the `IndexError` raised when `s` has no "//".
   */
  function SecondSlashField(s: string): Option<string> {
    match FirstDoubleSlash(s)
    case None => None
    case Some(i) =>
      var rest := s[i + 2..];
      match FirstDoubleSlash(rest)
      case None => Some(rest)
      case Some(j) => Some(rest[..j])
  }

  /** The address `remove_and_update_proxy` reads out of a descriptor (lines 117-119). */
  function AddressOf(d: Descriptor): Option<string> {
    SecondSlashField(d.http)
  }

  /** "http://" has its first "//" at index 5, whatever follows it. */
  lemma {:induction false} SchemeSlashes(address: string)
    ensures FirstDoubleSlash("http://" + address) == Some(5)
  {
    var s := "http://" + address;
    assert DoubleSlashAt(s, 5);
    assert forall j :: 0 <= j < 5 ==> !DoubleSlashAt(s, j);
  }

  /** A descriptor built for an address without "//" gives that address back. */
  lemma AddressRoundTrip(address: string)
    requires !HasDoubleSlash(address)
    ensures AddressOf(DescriptorFor(address)) == Some(address)
  {
    SchemeSlashes(address);
    assert ("http://" + address)[7..] == address;
  }

  /** An address with "//" in it is cut short: "a//b" comes back as "a". */
  lemma AddressCutAtSlashes(a: string, b: string)
    requires '/' !in a
    ensures AddressOf(DescriptorFor(a + "//" + b)) == Some(a)
  {
    SchemeSlashes(a + "//" + b);
    var rest := a + "//" + b;
    assert ("http://" + rest)[7..] == rest;
    assert DoubleSlashAt(rest, |a|);
    forall j | 0 <= j < |a|
      ensures !DoubleSlashAt(rest, j)
    {
      assert rest[j] == a[j] && a[j] in a;
    }
    assert rest[..|a|] == a;
  }

  /**
   * The pool address a working candidate line becomes: the line is wrapped in a
   * descriptor (line 62) and read back with `split("//")[1]` (line 83), which
   * cannot fail because the descriptor starts with "http://".
   */
  function PoolAddress(line: string): (a: string)
    ensures !HasDoubleSlash(line) ==> a == line
  {
    SchemeSlashes(line);
    if !HasDoubleSlash(line) then AddressRoundTrip(line); AddressOf(DescriptorFor(line)).value
    else AddressOf(DescriptorFor(line)).value
  }

  /* ---------------------------------------------------------------------------
   * update_proxy_list, step by step
   * ------------------------------------------------------------------------- */

  /** `response.text.strip().split("\n")`: the body is stripped as a whole, the lines are not. */
  function FetchedLines(body: string): (lines: seq<string>)
    ensures |lines| >= 1
    ensures forall l :: l in lines ==> '\n' !in l
  {
    SplitPiecesFree(Strip(body), '\n');
    Split(Strip(body), '\n')
  }

  /** The fetched lines that are not blacklisted, in fetched order. */
  function NotBlacklisted(lines: seq<string>, blacklist: set<string>): (r: seq<string>)
    ensures |r| <= |lines|
    ensures forall l :: l in r <==> l in lines && l !in blacklist
  {
    if lines == [] then []
    else (if lines[0] in blacklist then [] else [lines[0]]) + NotBlacklisted(lines[1..], blacklist)
  }

  /**
   * Filtering distributes over concatenation: the kept lines of `a + b` are the kept
   * lines of `a` followed by those of `b`, each as often as it occurs.
   */
  lemma {:induction false} NotBlacklistedAppend(a: seq<string>, b: seq<string>, blacklist: set<string>)
    ensures NotBlacklisted(a + b, blacklist) == NotBlacklisted(a, blacklist) + NotBlacklisted(b, blacklist)
  {
    if a == [] {
      assert a + b == b;
    } else {
      assert (a + b)[0] == a[0] && (a + b)[1..] == a[1..] + b;
      NotBlacklistedAppend(a[1..], b, blacklist);
    }
  }

  /** The lines that get probed: the non-blacklisted ones, cut to `max_proxies_to_test` (lines 61-66). */
  function Candidates(lines: seq<string>, blacklist: set<string>, maxToTest: nat): seq<string> {
    var unseen := NotBlacklisted(lines, blacklist);
    if |unseen| <= maxToTest then unseen else unseen[..maxToTest]
  }

  /**
   * The comprehension at lines 82-86: `zip` pairs each tested line with its probe
   * result (stopping at the shorter list) and keeps the working ones with their own
   * latency, in candidate order.
   */
  function WorkingEntries(tested: seq<string>, probes: seq<Probe>): (es: seq<Entry>)
    ensures |es| <= |tested| && |es| <= |probes|
  {
    if tested == [] || probes == [] then []
    else
      var rest := WorkingEntries(tested[1..], probes[1..]);
      if probes[0].isWorking then [Entry(PoolAddress(tested[0]), probes[0].latency)] + rest else rest
  }

  /** Inserts `e` in front of every entry at least as slow, keeping `e` ahead of its ties. */
  function InsertByLatency(e: Entry, es: seq<Entry>): seq<Entry> {
    if es == [] || e.latency <= es[0].latency then [e] + es
    else [es[0]] + InsertByLatency(e, es[1..])
  }

  /** `list.sort(key=latency)`: a stable sort by latency (here an insertion sort). */
  function SortByLatency(es: seq<Entry>): seq<Entry> {
    if es == [] then [] else InsertByLatency(es[0], SortByLatency(es[1..]))
  }

  predicate SortedByLatency(es: seq<Entry>) {
    forall i, j :: 0 <= i < j < |es| ==> es[i].latency <= es[j].latency
  }

  /** The entries of `es` whose latency is `v`, in order. */
  function WithLatency(es: seq<Entry>, v: nat): seq<Entry> {
    if es == [] then [] else (if es[0].latency == v then [es[0]] else []) + WithLatency(es[1..], v)
  }

  function Addresses(es: seq<Entry>): set<string> {
    set e | e in es :: e.address
  }

  function LineSet(lines: seq<string>): set<string> {
    set l | l in lines
  }

  /**
   * The whole of `update_proxy_list` on the two fields (lines 52-97): a failed fetch
   * changes nothing; otherwise the pool is REPLACED by the sorted working candidates,
   * and every fetched line that did not become a pool address joins the blacklist.
   */
  function Refreshed(p: PoolState, fetch: Fetch, probes: seq<Probe>, maxToTest: nat): PoolState {
    match fetch
    case FetchFailed => p
    case Fetched(body) =>
      var lines := FetchedLines(body);
      var pool := SortByLatency(WorkingEntries(Candidates(lines, p.blacklist, maxToTest), probes));
      PoolState(pool, p.blacklist + (LineSet(lines) - Addresses(pool)))
  }

  /** The refresh after a successful fetch, spelled out. */
  lemma RefreshedFetched(p: PoolState, fetch: Fetch, probes: seq<Probe>, maxToTest: nat)
    requires fetch.Fetched?
    ensures var lines := FetchedLines(fetch.body);
      var pool := SortByLatency(WorkingEntries(Candidates(lines, p.blacklist, maxToTest), probes));
      Refreshed(p, fetch, probes, maxToTest) == PoolState(pool, p.blacklist + (LineSet(lines) - Addresses(pool)))
  {
  }

  /** The entries whose address is not `address`, in order (lines 122-124). */
  function WithoutAddress(es: seq<Entry>, address: string): seq<Entry> {
    if es == [] then []
    else (if es[0].address == address then [] else [es[0]]) + WithoutAddress(es[1..], address)
  }

  /** Lines 122-125: the address leaves the pool and joins the blacklist. */
  function Evicted(p: PoolState, address: string): PoolState {
    PoolState(WithoutAddress(p.proxies, address), p.blacklist + {address})
  }

  /** `remove_and_update_proxy` for a readable address, with the refresh it may trigger. */
  function Reported(p: PoolState, address: string, fetch: Fetch, probes: seq<Probe>): PoolState {
    var e := Evicted(p, address);
    if |e.proxies| < LowWaterMark then Refreshed(e, fetch, probes, DefaultMaxToTest) else e
  }

  /* ---------------------------------------------------------------------------
   * What update_proxy_list promises
   * ------------------------------------------------------------------------- */

  /** Inserting into a sorted list keeps it sorted and adds exactly one entry. */
  lemma {:induction false} InsertByLatencySorted(e: Entry, es: seq<Entry>)
    requires SortedByLatency(es)
    ensures SortedByLatency(InsertByLatency(e, es))
    ensures multiset(InsertByLatency(e, es)) == multiset(es) + multiset{e}
  {
    if es == [] || e.latency <= es[0].latency {
      if es != [] {
        SortedHeadLeast(es);
      }
      SortedCons(e, es);
    } else {
      var t := InsertByLatency(e, es[1..]);
      SortedTail(es);
      InsertByLatencySorted(e, es[1..]);
      SortedHeadLeast(es);
      forall x | x in t
        ensures es[0].latency <= x.latency
      {
        assert x in multiset(t);
      }
      SortedCons(es[0], t);
      HeadTail(es);
    }
  }

  /** The first entry of a sorted list is the fastest. */
  lemma SortedHeadLeast(es: seq<Entry>)
    requires SortedByLatency(es) && es != []
    ensures forall y :: y in es ==> es[0].latency <= y.latency
  {
  }

  lemma SortedTail(es: seq<Entry>)
    requires SortedByLatency(es) && es != []
    ensures SortedByLatency(es[1..])
  {
    forall i, j | 0 <= i < j < |es| - 1
      ensures es[1..][i].latency <= es[1..][j].latency
    {
      assert es[1..][i] == es[i + 1] && es[1..][j] == es[j + 1];
    }
  }

  /** An entry no slower than anything in a sorted list can go in front of it. */
  lemma SortedCons(x: Entry, t: seq<Entry>)
    requires SortedByLatency(t)
    requires forall y :: y in t ==> x.latency <= y.latency
    ensures SortedByLatency([x] + t)
  {
    var r := [x] + t;
    forall i, j | 0 <= i < j < |r|
      ensures r[i].latency <= r[j].latency
    {
      assert r[j] == t[j - 1];
      if i > 0 {
        assert r[i] == t[i - 1];
      } else {
        assert t[j - 1] in t;
      }
    }
  }

  /** The sort yields a latency-sorted permutation of its input. */
  lemma {:induction false} SortByLatencySorted(es: seq<Entry>)
    ensures SortedByLatency(SortByLatency(es))
    ensures multiset(SortByLatency(es)) == multiset(es)
    ensures |SortByLatency(es)| == |es|
  {
    if es != [] {
      SortByLatencySorted(es[1..]);
      InsertByLatencySorted(es[0], SortByLatency(es[1..]));
      HeadTail(es);
    }
    assert |multiset(SortByLatency(es))| == |multiset(es)|;
  }

  /** Inserting `e` puts it ahead of every other entry of its own latency. */
  lemma {:induction false} InsertByLatencyStable(e: Entry, es: seq<Entry>, v: nat)
    ensures WithLatency(InsertByLatency(e, es), v) == (if e.latency == v then [e] else []) + WithLatency(es, v)
  {
    if es == [] || e.latency <= es[0].latency {
      WithLatencyCons(e, es, v);
    } else {
      var h, rest := es[0], es[1..];
      var t := InsertByLatency(e, rest);
      assert InsertByLatency(e, es) == [h] + t;
      var mine: seq<Entry> := if e.latency == v then [e] else [];
      var theirs: seq<Entry> := if h.latency == v then [h] else [];
      var w := WithLatency(rest, v);
      assert WithLatency(es, v) == theirs + w;
      InsertByLatencyStable(e, rest, v);
      WithLatencyCons(h, t, v);
      assert WithLatency([h] + t, v) == theirs + (mine + w);
      SwapAroundEmpty(theirs, mine, w);
    }
  }

  /** Two parts of which one is empty can be swapped. */
  lemma SwapAroundEmpty<T>(a: seq<T>, b: seq<T>, w: seq<T>)
    requires a == [] || b == []
    ensures a + (b + w) == b + (a + w)
  {
    if a == [] {
      assert a + (b + w) == b + w;
    } else {
      assert b + (a + w) == a + w;
    }
  }

  lemma WithLatencyCons(x: Entry, t: seq<Entry>, v: nat)
    ensures WithLatency([x] + t, v) == (if x.latency == v then [x] else []) + WithLatency(t, v)
  {
    assert ([x] + t)[1..] == t;
  }

  /**
   * The sort is stable: for every latency, the entries with that latency appear in
   * the same order as in the input. With sortedness this determines the result.
   */
  lemma {:induction false} SortByLatencyStable(es: seq<Entry>, v: nat)
    ensures WithLatency(SortByLatency(es), v) == WithLatency(es, v)
  {
    if es != [] {
      SortByLatencyStable(es[1..], v);
      InsertByLatencyStable(es[0], SortByLatency(es[1..]), v);
    }
  }

  /** The kept entries are exactly the working probes' candidates, each with its own probe's latency. */
  lemma {:induction false} WorkingEntriesMembers(tested: seq<string>, probes: seq<Probe>, e: Entry)
    ensures e in WorkingEntries(tested, probes) <==>
      exists i :: 0 <= i < |tested| && i < |probes| && probes[i].isWorking &&
        e == Entry(PoolAddress(tested[i]), probes[i].latency)
  {
    if tested != [] && probes != [] {
      WorkingEntriesMembers(tested[1..], probes[1..], e);
      if e in WorkingEntries(tested, probes) && e !in WorkingEntries(tested[1..], probes[1..]) {
        assert 0 < |tested| && 0 < |probes| && probes[0].isWorking &&
          e == Entry(PoolAddress(tested[0]), probes[0].latency);
      }
      if e in WorkingEntries(tested[1..], probes[1..]) {
        var i :| 0 <= i < |tested[1..]| && i < |probes[1..]| && probes[1..][i].isWorking &&
          e == Entry(PoolAddress(tested[1..][i]), probes[1..][i].latency);
        assert probes[i + 1] == probes[1..][i] && tested[i + 1] == tested[1..][i];
      }
      if exists i :: 0 <= i < |tested| && i < |probes| && probes[i].isWorking &&
          e == Entry(PoolAddress(tested[i]), probes[i].latency) {
        var i :| 0 <= i < |tested| && i < |probes| && probes[i].isWorking &&
          e == Entry(PoolAddress(tested[i]), probes[i].latency);
        if i > 0 {
          assert probes[1..][i - 1] == probes[i] && tested[1..][i - 1] == tested[i];
        }
      }
    }
  }

  /**
   * `zip` and the filter distribute over concatenation when the first parts pair up
   * exactly, so each working position contributes one entry, in candidate order.
   */
  lemma {:induction false} WorkingEntriesAppend(t1: seq<string>, p1: seq<Probe>, t2: seq<string>, p2: seq<Probe>)
    requires |t1| == |p1|
    ensures WorkingEntries(t1 + t2, p1 + p2) == WorkingEntries(t1, p1) + WorkingEntries(t2, p2)
  {
    if t1 == [] {
      assert t1 + t2 == t2 && p1 + p2 == p2;
    } else {
      assert (t1 + t2)[0] == t1[0] && (t1 + t2)[1..] == t1[1..] + t2;
      assert (p1 + p2)[0] == p1[0] && (p1 + p2)[1..] == p1[1..] + p2;
      WorkingEntriesAppend(t1[1..], p1[1..], t2, p2);
    }
  }

  /**
   * Each candidate is a fetched, non-blacklisted line, and there are at most `maxToTest`
   * of them: exactly the first `maxToTest` non-blacklisted lines, in fetched order.
   */
  lemma CandidatesFromLines(lines: seq<string>, blacklist: set<string>, maxToTest: nat)
    ensures |Candidates(lines, blacklist, maxToTest)| <= maxToTest
    ensures forall l :: l in Candidates(lines, blacklist, maxToTest) ==> l in lines && l !in blacklist
    ensures var unseen, c := NotBlacklisted(lines, blacklist), Candidates(lines, blacklist, maxToTest);
      |c| == (if |unseen| <= maxToTest then |unseen| else maxToTest) && c == unseen[..|c|]
  {
    var unseen := NotBlacklisted(lines, blacklist);
    if |unseen| > maxToTest {
      assert forall l :: l in unseen[..maxToTest] ==> l in unseen;
    }
  }

  /** After a successful update the pool is sorted by latency. */
  lemma RefreshSorted(p: PoolState, body: string, probes: seq<Probe>, maxToTest: nat)
    ensures SortedByLatency(Refreshed(p, Fetched(body), probes, maxToTest).proxies)
  {
    SortByLatencySorted(WorkingEntries(Candidates(FetchedLines(body), p.blacklist, maxToTest), probes));
  }

  /**
   * After a successful update the pool holds exactly the tested candidates whose probe
   * reported success, each with its own probe's latency; the old pool plays no part.
   */
  lemma RefreshWorkingSet(p: PoolState, body: string, probes: seq<Probe>, maxToTest: nat, e: Entry)
    ensures
      var tested := Candidates(FetchedLines(body), p.blacklist, maxToTest);
      multiset(Refreshed(p, Fetched(body), probes, maxToTest).proxies) == multiset(WorkingEntries(tested, probes))
    ensures
      var tested := Candidates(FetchedLines(body), p.blacklist, maxToTest);
      e in Refreshed(p, Fetched(body), probes, maxToTest).proxies <==>
        exists i :: 0 <= i < |tested| && i < |probes| && probes[i].isWorking &&
          e == Entry(PoolAddress(tested[i]), probes[i].latency)
  {
    var working := WorkingEntries(Candidates(FetchedLines(body), p.blacklist, maxToTest), probes);
    SortByLatencySorted(working);
    assert e in SortByLatency(working) <==> e in multiset(working);
    WorkingEntriesMembers(Candidates(FetchedLines(body), p.blacklist, maxToTest), probes, e);
  }

  /**
   * After a successful update every pool address comes from a fetched line that was
   * not blacklisted before, and at most `maxToTest` entries are kept. When no line
   * contains "//", each address is that line itself.
   */
  lemma RefreshFromFreshLines(p: PoolState, body: string, probes: seq<Probe>, maxToTest: nat)
    ensures
      var r := Refreshed(p, Fetched(body), probes, maxToTest);
      |r.proxies| <= maxToTest &&
      forall e :: e in r.proxies ==>
        exists l :: l in FetchedLines(body) && l !in p.blacklist && e.address == PoolAddress(l)
    ensures
      (forall l :: l in FetchedLines(body) ==> !HasDoubleSlash(l)) ==>
      forall e :: e in Refreshed(p, Fetched(body), probes, maxToTest).proxies ==>
        e.address in FetchedLines(body) && e.address !in p.blacklist
  {
    var lines := FetchedLines(body);
    var tested := Candidates(lines, p.blacklist, maxToTest);
    var r := Refreshed(p, Fetched(body), probes, maxToTest);
    CandidatesFromLines(lines, p.blacklist, maxToTest);
    SortByLatencySorted(WorkingEntries(tested, probes));
    forall e | e in r.proxies
      ensures exists l :: l in lines && l !in p.blacklist && e.address == PoolAddress(l)
    {
      RefreshWorkingSet(p, body, probes, maxToTest, e);
      var i :| 0 <= i < |tested| && i < |probes| && probes[i].isWorking &&
        e == Entry(PoolAddress(tested[i]), probes[i].latency);
      assert tested[i] in tested;
    }
  }

  /**
   * After a successful update the blacklist has grown by exactly the fetched lines that
   * did not become pool addresses (untested lines beyond the cap included); and when no
   * fetched line contains "//", no pool address is blacklisted.
   */
  lemma RefreshBlacklist(p: PoolState, body: string, probes: seq<Probe>, maxToTest: nat)
    ensures
      var r := Refreshed(p, Fetched(body), probes, maxToTest);
      && p.blacklist <= r.blacklist
      && r.blacklist - p.blacklist == LineSet(FetchedLines(body)) - Addresses(r.proxies) - p.blacklist
    ensures
      (forall l :: l in FetchedLines(body) ==> !HasDoubleSlash(l)) ==>
      var r := Refreshed(p, Fetched(body), probes, maxToTest);
      Addresses(r.proxies) !! r.blacklist
  {
    var r := Refreshed(p, Fetched(body), probes, maxToTest);
    if forall l :: l in FetchedLines(body) ==> !HasDoubleSlash(l) {
      RefreshFromFreshLines(p, body, probes, maxToTest);
      forall a | a in Addresses(r.proxies)
        ensures a !in r.blacklist
      {
        var e :| e in r.proxies && e.address == a;
      }
    }
  }

  /** A text without '/' has no "//". */
  lemma NoSlashNoDoubleSlash(s: string)
    requires '/' !in s
    ensures !HasDoubleSlash(s)
  {
    forall i | 0 <= i < |s|
      ensures !DoubleSlashAt(s, i)
    {
      assert s[i] in s;
    }
  }

  /** The lines of a body that is already trimmed and made of newline-free lines. */
  lemma TrimmedBodyLines(lines: seq<string>)
    requires |lines| >= 1 && forall l :: l in lines ==> '\n' !in l
    requires Trimmed(Join(lines, "\n"))
    ensures FetchedLines(Join(lines, "\n")) == lines
  {
    FetchedTrimmed(Join(lines, "\n"));
    LinesRoundTrip(lines);
  }

  /** A body without surrounding whitespace is split as it is. */
  lemma FetchedTrimmed(body: string)
    requires Trimmed(body)
    ensures FetchedLines(body) == Split(body, '\n')
  {
    StripTrimmed(body);
  }

  /** Newline-free lines joined by newlines split back into the same lines. */
  lemma LinesRoundTrip(lines: seq<string>)
    requires |lines| >= 1 && forall l :: l in lines ==> '\n' !in l
    ensures Split(Join(lines, "\n"), '\n') == lines
  {
    SplitJoin(lines, '\n');
  }

  /**
   * A line containing "//" can leave a blacklisted address in the pool: with `a`
   * blacklisted, a working line "a//b" is probed and enters the pool as `a`.
   */
  lemma SlashedLineBreaksDisjointness(a: string, b: string, latency: nat)
    requires a != [] && b != [] && !IsSpace(a[0]) && !IsSpace(b[|b| - 1])
    requires '/' !in a && '\n' !in a && '\n' !in b
    ensures
      var r := Refreshed(PoolState([], {a}), Fetched(a + "//" + b), [Probe(true, latency)], DefaultMaxToTest);
      r.proxies == [Entry(a, latency)] && a in r.blacklist
  {
    var line := a + "//" + b;
    var pool := [Entry(a, latency)];
    OneLine(line);
    assert SortByLatency(WorkingEntries(Candidates([line], {a}, DefaultMaxToTest), [Probe(true, latency)])) == pool by {
      SlashedCandidate(a, b, latency);
      assert SortByLatency(pool) == pool;
    }
    RefreshedFetched(PoolState([], {a}), Fetched(line), [Probe(true, latency)], DefaultMaxToTest);
  }

  /** A trimmed single line is fetched as itself. */
  lemma OneLine(line: string)
    requires line != [] && !IsSpace(line[0]) && !IsSpace(line[|line| - 1]) && '\n' !in line
    ensures FetchedLines(line) == [line]
  {
    assert Join([line], "\n") == line;
    TrimmedBodyLines([line]);
  }

  /** The line "a//b" is not blacklisted by `a`, and when it works it enters the pool as `a`. */
  lemma SlashedCandidate(a: string, b: string, latency: nat)
    requires '/' !in a
    ensures WorkingEntries(Candidates([a + "//" + b], {a}, DefaultMaxToTest), [Probe(true, latency)])
      == [Entry(a, latency)]
  {
    var line := a + "//" + b;
    assert |line| > |a|;
    assert Candidates([line], {a}, DefaultMaxToTest) == [line];
    AddressCutAtSlashes(a, b);
  }

  /**
   * The replenishment scenario, for any two distinct well-formed lines: from an empty
   * pool and blacklist, the first answers, the second times out; the pool becomes the
   * first with its latency, and the blacklist the second.
   */
  lemma ReplenishScenario(x: string, y: string, latency: nat, failed: nat)
    requires x != y && x != [] && y != []
    requires !IsSpace(x[0]) && !IsSpace(y[|y| - 1])
    requires '\n' !in x && '\n' !in y && '/' !in x
    ensures
      Refreshed(PoolState([], {}), Fetched(x + "\n" + y), [Probe(true, latency), Probe(false, failed)], DefaultMaxToTest)
      == PoolState([Entry(x, latency)], {y})
  {
    var probes := [Probe(true, latency), Probe(false, failed)];
    TwoLines(x, y);
    var pool := [Entry(x, latency)];
    assert SortByLatency(WorkingEntries(Candidates([x, y], {}, DefaultMaxToTest), probes)) == pool by {
      FirstWorks(x, y, latency, failed);
      assert SortByLatency(pool) == pool;
    }
    SecondBlacklisted(x, y, latency);
    RefreshedFetched(PoolState([], {}), Fetched(x + "\n" + y), probes, DefaultMaxToTest);
  }

  /** The line that did not enter the pool is the one blacklisted. */
  lemma SecondBlacklisted(x: string, y: string, latency: nat)
    requires x != y
    ensures {} + (LineSet([x, y]) - Addresses([Entry(x, latency)])) == {y}
  {
    assert Addresses([Entry(x, latency)]) == {x};
    assert LineSet([x, y]) == {x, y};
  }

  /** Two trimmed single lines joined by a newline are fetched as those two lines. */
  lemma TwoLines(x: string, y: string)
    requires x != [] && y != [] && !IsSpace(x[0]) && !IsSpace(y[|y| - 1])
    requires '\n' !in x && '\n' !in y
    ensures FetchedLines(x + "\n" + y) == [x, y]
  {
    assert Join([x, y], "\n") == x + "\n" + y;
    TrimmedBodyLines([x, y]);
  }

  /** Of two fresh candidates, only the first answers, and enters the pool with its latency. */
  lemma FirstWorks(x: string, y: string, latency: nat, failed: nat)
    requires '/' !in x
    ensures WorkingEntries(Candidates([x, y], {}, DefaultMaxToTest), [Probe(true, latency), Probe(false, failed)])
      == [Entry(x, latency)]
  {
    assert Candidates([x, y], {}, DefaultMaxToTest) == [x, y] by {
      assert NotBlacklisted([y], {}) == [y];
    }
    NoSlashNoDoubleSlash(x);
    assert WorkingEntries([y], [Probe(false, failed)]) == [];
  }

  /**
   * A refresh replaces the pool wholesale: whatever the pool held, a refresh whose only
   * fetched line works leaves exactly that line in the pool.
   */
  lemma RefreshReplacesPool(p: PoolState, z: string, latency: nat)
    requires z != [] && Trimmed(z) && '\n' !in z && '/' !in z && z !in p.blacklist
    ensures Refreshed(p, Fetched(z), [Probe(true, latency)], DefaultMaxToTest).proxies == [Entry(z, latency)]
  {
    OneLine(z);
    assert WorkingEntries([z], [Probe(true, latency)]) == [Entry(z, latency)] by {
      NoSlashNoDoubleSlash(z);
    }
    assert Candidates([z], p.blacklist, DefaultMaxToTest) == [z];
    assert SortByLatency([Entry(z, latency)]) == [Entry(z, latency)];
  }

  /* ---------------------------------------------------------------------------
   * What remove_and_update_proxy promises
   * ------------------------------------------------------------------------- */

  /** Eviction keeps exactly the entries with another address. */
  lemma {:induction false} WithoutAddressMembers(es: seq<Entry>, address: string)
    ensures |WithoutAddress(es, address)| <= |es|
    ensures forall e :: e in WithoutAddress(es, address) <==> e in es && e.address != address
  {
    if es != [] {
      WithoutAddressMembers(es[1..], address);
      HeadTail(es);
    }
  }

  /** Eviction distributes over concatenation: the survivors keep their order and their number of occurrences. */
  lemma {:induction false} WithoutAddressAppend(a: seq<Entry>, b: seq<Entry>, address: string)
    ensures WithoutAddress(a + b, address) == WithoutAddress(a, address) + WithoutAddress(b, address)
  {
    if a == [] {
      assert a + b == b;
    } else {
      assert (a + b)[0] == a[0] && (a + b)[1..] == a[1..] + b;
      WithoutAddressAppend(a[1..], b, address);
    }
  }

  /** A pool that does not hold the address is left as it is. */
  lemma {:induction false} WithoutAbsentAddress(es: seq<Entry>, address: string)
    requires address !in Addresses(es)
    ensures WithoutAddress(es, address) == es
  {
    if es != [] {
      assert es[0] in es;
      assert address !in Addresses(es[1..]) by {
        assert forall e :: e in es[1..] ==> e in es;
      }
      WithoutAbsentAddress(es[1..], address);
      HeadTail(es);
    }
  }

  /** Eviction keeps the remaining entries in their order, so a sorted pool stays sorted. */
  lemma {:induction false} WithoutAddressSorted(es: seq<Entry>, address: string)
    requires SortedByLatency(es)
    ensures SortedByLatency(WithoutAddress(es, address))
  {
    if es != [] {
      SortedTail(es);
      WithoutAddressSorted(es[1..], address);
      WithoutAddressMembers(es[1..], address);
      var t := WithoutAddress(es[1..], address);
      if es[0].address != address {
        SortedHeadLeast(es);
        forall x | x in t
          ensures es[0].latency <= x.latency
        {
          assert x in es[1..];
        }
        SortedCons(es[0], t);
      }
    }
  }

  /** Evicting the same address twice is the same as evicting it once. */
  lemma {:induction false} WithoutAddressIdempotent(es: seq<Entry>, address: string)
    ensures WithoutAddress(WithoutAddress(es, address), address) == WithoutAddress(es, address)
  {
    if es != [] {
      WithoutAddressIdempotent(es[1..], address);
      var t := WithoutAddress(es[1..], address);
      if es[0].address != address {
        assert ([es[0]] + t)[1..] == t;
      } else {
        assert WithoutAddress(es, address) == t;
      }
    }
  }

  /** After an eviction the address is gone from the pool and present in the blacklist. */
  lemma EvictedAddress(p: PoolState, address: string)
    ensures address !in Addresses(Evicted(p, address).proxies)
    ensures address in Evicted(p, address).blacklist && p.blacklist <= Evicted(p, address).blacklist
    ensures Addresses(p.proxies) !! p.blacklist ==> Addresses(Evicted(p, address).proxies) !! Evicted(p, address).blacklist
  {
    WithoutAddressMembers(p.proxies, address);
    var e := Evicted(p, address);
    forall a | a in Addresses(e.proxies)
      ensures a != address && a in Addresses(p.proxies)
    {
      var x :| x in e.proxies && x.address == a;
    }
  }

  /**
   * Reporting the same address twice in a row ends in the state the first report left,
   * when the first report did not fall below the low-water mark (so neither refreshes),
   * whatever the second report would have fetched.
   */
  lemma ReportTwice(p: PoolState, address: string, fetch: Fetch, probes: seq<Probe>, fetch2: Fetch, probes2: seq<Probe>)
    requires |Evicted(p, address).proxies| >= LowWaterMark
    ensures Reported(Reported(p, address, fetch, probes), address, fetch2, probes2) == Reported(p, address, fetch, probes)
  {
    WithoutAddressIdempotent(p.proxies, address);
    var e := Evicted(p, address);
    assert e.blacklist + {address} == e.blacklist;
  }

  /**
   * The same when the first report fell below the low-water mark and its refresh brought
   * the pool back to at least `LowWaterMark` entries: the refresh keeps the blacklisted
   * address out of the pool, so the repeat evicts nothing and does not refresh. This needs
   * fetched lines without "//" (`SlashedLineBreaksDisjointness` shows a working `a//b`
   * line bringing `a` back).
   */
  lemma ReportTwiceAfterRefresh(p: PoolState, address: string, fetch: Fetch, probes: seq<Probe>, fetch2: Fetch, probes2: seq<Probe>)
    requires SlashFree(fetch) && fetch.Fetched?
    requires |Evicted(p, address).proxies| < LowWaterMark
    requires |Reported(p, address, fetch, probes).proxies| >= LowWaterMark
    ensures Reported(Reported(p, address, fetch, probes), address, fetch2, probes2) == Reported(p, address, fetch, probes)
  {
    EvictedAddress(p, address);
    var q := Reported(p, address, fetch, probes);
    RefreshBlacklist(Evicted(p, address), fetch.body, probes, DefaultMaxToTest);
    WithoutAbsentAddress(q.proxies, address);
    assert q.blacklist + {address} == q.blacklist;
  }

  /** The two invariants the pool keeps: sorted by latency, and disjoint from the blacklist. */
  predicate Consistent(p: PoolState) {
    SortedByLatency(p.proxies) && Addresses(p.proxies) !! p.blacklist
  }

  /** A fetch whose lines contain no "//" (every real "host:port" list). */
  predicate SlashFree(fetch: Fetch) {
    fetch.Fetched? ==> forall l :: l in FetchedLines(fetch.body) ==> !HasDoubleSlash(l)
  }

  /** Refreshes and reports keep a consistent pool consistent, as long as fetched lines contain no "//". */
  lemma ReportKeepsConsistent(p: PoolState, address: string, fetch: Fetch, probes: seq<Probe>)
    requires Consistent(p) && SlashFree(fetch)
    ensures Consistent(Evicted(p, address))
    ensures Consistent(Refreshed(p, fetch, probes, DefaultMaxToTest))
    ensures Consistent(Reported(p, address, fetch, probes))
  {
    assert Consistent(Evicted(p, address)) by {
      WithoutAddressSorted(p.proxies, address);
      EvictedAddress(p, address);
    }
    RefreshKeepsConsistent(p, fetch, probes);
    RefreshKeepsConsistent(Evicted(p, address), fetch, probes);
  }

  /** A refresh keeps a consistent pool consistent when the fetched lines contain no "//". */
  lemma RefreshKeepsConsistent(p: PoolState, fetch: Fetch, probes: seq<Probe>)
    requires Consistent(p) && SlashFree(fetch)
    ensures Consistent(Refreshed(p, fetch, probes, DefaultMaxToTest))
  {
    if fetch.Fetched? {
      RefreshSorted(p, fetch.body, probes, DefaultMaxToTest);
      RefreshBlacklist(p, fetch.body, probes, DefaultMaxToTest);
    }
  }

  /* ---------------------------------------------------------------------------
   * The two files (lines 24-50)
   * ------------------------------------------------------------------------- */

  /**
   * `load_blacklist`: every non-blank line, stripped. `None` is a missing file.
   * The text is taken after the file object's newline handling.
   */
  function LoadBlacklist(file: Option<string>): set<string> {
    match file
    case None => {}
    case Some(text) => set l | l in Split(text, '\n') && Strip(l) != [] :: Strip(l)
  }

  /** What a saved blacklist reads back as: each address stripped, blank ones gone. */
  function ReloadedBlacklist(blacklist: set<string>): set<string> {
    set a | a in blacklist && Strip(a) != [] :: Strip(a)
  }

  /**
   * `save_blacklist`'s write loop: one `address + "\n"` per member, in whatever order
   * the set is iterated. When no address holds a newline, the file's lines are the
   * members, each once, and one final empty piece.
   */
  method EncodeBlacklist(blacklist: set<string>) returns (text: string)
    ensures (forall a :: a in blacklist ==> '\n' !in a) ==>
      multiset(Split(text, '\n')) == multiset(blacklist) + multiset{[]}
  {
    text := [];
    var remaining := blacklist;
    ghost var written: seq<string> := [];
    while remaining != {}
      invariant remaining <= blacklist
      invariant multiset(written) + multiset(remaining) == multiset(blacklist)
      invariant text == Terminated(written, '\n')
      decreases |remaining|
    {
      var address :| address in remaining;
      text := text + address + "\n";
      TerminatedAppend(written, address, '\n');
      written := written + [address];
      remaining := remaining - {address};
    }
    if forall a :: a in blacklist ==> '\n' !in a {
      assert multiset(written) == multiset(blacklist);
      forall a | a in written
        ensures '\n' !in a
      {
        assert a in multiset(written);
        assert a in blacklist;
      }
      SplitTerminated(written, '\n');
    }
  }

  /** A file whose lines are the members and a final empty piece loads as the reloaded blacklist. */
  lemma LoadEncodedBlacklist(text: string, blacklist: set<string>)
    requires multiset(Split(text, '\n')) == multiset(blacklist) + multiset{[]}
    ensures LoadBlacklist(Some(text)) == ReloadedBlacklist(blacklist)
  {
    forall l
      ensures l in Split(text, '\n') <==> l in blacklist || l == []
    {
      assert l in Split(text, '\n') <==> l in multiset(Split(text, '\n'));
    }
  }

  /**
   * An address the two files carry unchanged: no ',', no newline, no carriage return (the
   * text layer reads '\r' back as a line break), and no leading whitespace.
   */
  predicate WellFormedAddress(a: string) {
    ',' !in a && '\n' !in a && '\r' !in a && (a == [] || !IsSpace(a[0]))
  }

  /**
   * The reloaded blacklist of non-empty, trimmed addresses is the same set; with
   * `BlacklistSaved` (newline- and carriage-return-free addresses) this is the round trip.
   */
  lemma BlacklistRoundTrip(blacklist: set<string>)
    requires forall a :: a in blacklist ==> a != [] && Trimmed(a)
    ensures ReloadedBlacklist(blacklist) == blacklist
  {
    forall a | a in blacklist
      ensures Strip(a) == a
    {
      StripTrimmed(a);
    }
  }

  /** `f"{proxy},{time_taken}"`, without its newline. */
  function EntryLine(e: Entry): string {
    e.address + "," + NatToString(e.latency)
  }

  function EntryLines(es: seq<Entry>): (lines: seq<string>)
    ensures |lines| == |es| && forall i :: 0 <= i < |es| ==> lines[i] == EntryLine(es[i])
  {
    if es == [] then [] else [EntryLine(es[0])] + EntryLines(es[1..])
  }

  /** The lines of one more entry of a prefix. */
  lemma EntryLinesPrefix(es: seq<Entry>, i: nat)
    requires i < |es|
    ensures EntryLines(es[..i + 1]) == EntryLines(es[..i]) + [EntryLine(es[i])]
  {
    var a, b := EntryLines(es[..i + 1]), EntryLines(es[..i]) + [EntryLine(es[i])];
    assert forall k :: 0 <= k < |a| ==> a[k] == b[k];
  }

  /** The contents of the working-proxies file after `save_working_proxies`. */
  function EncodeEntries(es: seq<Entry>): string {
    Terminated(EntryLines(es), '\n')
  }

  /** `save_working_proxies`'s write loop, one line per entry in pool order. */
  method EncodeWorkingProxies(es: seq<Entry>) returns (text: string)
    ensures text == EncodeEntries(es)
    ensures (forall e :: e in es ==> WellFormedAddress(e.address)) ==> LoadWorkingProxies(Some(text)) == Ok(es)
  {
    text := [];
    var i := 0;
    while i < |es|
      invariant 0 <= i <= |es|
      invariant text == Terminated(EntryLines(es[..i]), '\n')
    {
      TerminatedAppend(EntryLines(es[..i]), EntryLine(es[i]), '\n');
      EntryLinesPrefix(es, i);
      text := text + EntryLine(es[i]) + "\n";
      i := i + 1;
    }
    assert es[..i] == es;
    if forall e :: e in es ==> WellFormedAddress(e.address) {
      WorkingProxiesRoundTrip(es);
    }
  }

  /** `float(...)` on a latency field: surrounding whitespace is allowed, the rest must be a numeral. */
  function ParseLatency(field: string): Option<nat> {
    ParseNat(Strip(field))
  }

  /** One stripped, non-blank line: field 0 is the address, field 1 the latency (line 40). */
  function ParseEntryLine(line: string): Result<Entry> {
    var fields := Split(line, ',');
    if |fields| < 2 then Err("IndexError")
    else
      match ParseLatency(fields[1])
      case None => Err("ValueError")
      case Some(latency) => Ok(Entry(fields[0], latency))
  }

  /** The comprehension of `load_working_proxies`: blank lines skipped, the first bad line raises. */
  function DecodeEntries(lines: seq<string>): Result<seq<Entry>> {
    if lines == [] then Ok([])
    else if Strip(lines[0]) == [] then DecodeEntries(lines[1..])
    else
      match ParseEntryLine(Strip(lines[0]))
      case Err(e) => Err(e)
      case Ok(entry) =>
        match DecodeEntries(lines[1..])
        case Err(e) => Err(e)
        case Ok(rest) => Ok([entry] + rest)
  }

  /** `load_working_proxies`: a missing file is an empty pool; a malformed line is an error. */
  function LoadWorkingProxies(file: Option<string>): Result<seq<Entry>> {
    match file
    case None => Ok([])
    case Some(text) => DecodeEntries(Split(text, '\n'))
  }

  /** A saved entry line is one non-blank line with nothing to strip. */
  lemma EntryLineTrimmed(e: Entry)
    requires WellFormedAddress(e.address)
    ensures '\n' !in EntryLine(e)
    ensures Strip(EntryLine(e)) == EntryLine(e) && EntryLine(e) != []
  {
    var digits := NatToString(e.latency);
    var line := EntryLine(e);
    assert line == e.address + [','] + digits;
    assert forall c :: c in digits ==> IsDigit(c);
    assert !IsSpace(line[0]);
    assert line[|line| - 1] == digits[|digits| - 1];
    DigitNotSpace(digits[|digits| - 1]);
    StripTrimmed(line);
  }

  /** The fields of a saved entry line parse back as its address and latency. */
  lemma EntryLineFields(e: Entry)
    requires WellFormedAddress(e.address)
    ensures ParseEntryLine(EntryLine(e)) == Ok(e)
  {
    var digits := NatToString(e.latency);
    assert EntryLine(e) == e.address + [','] + digits;
    assert forall c :: c in digits ==> IsDigit(c);
    SplitTwo(e.address, digits, ',');
    DigitNotSpace(digits[0]);
    DigitNotSpace(digits[|digits| - 1]);
    StripTrimmed(digits);
    NatRoundTrip(e.latency);
  }

  /** A well-formed line in front of decodable lines decodes to its entry in front. */
  lemma DecodeEntriesCons(line: string, rest: seq<string>, e: Entry, tail: seq<Entry>)
    requires Strip(line) == line && line != [] && ParseEntryLine(line) == Ok(e)
    requires DecodeEntries(rest) == Ok(tail)
    ensures DecodeEntries([line] + rest) == Ok([e] + tail)
  {
    assert ([line] + rest)[0] == line && ([line] + rest)[1..] == rest;
  }

  /** Decoding saved entry lines and the final empty piece gives back the entries. */
  lemma {:induction false} DecodeEntryLines(es: seq<Entry>)
    requires forall e :: e in es ==> WellFormedAddress(e.address)
    ensures DecodeEntries(EntryLines(es) + [[]]) == Ok(es)
  {
    if es == [] {
      DecodeOnlyBlank(es);
    } else {
      DecodeEntryLines(es[1..]);
      EntryLineTrimmed(es[0]);
      EntryLineFields(es[0]);
      DecodeEntryLinesStep(es);
    }
  }

  /** An empty pool saves as an empty file, whose single blank piece decodes to nothing. */
  lemma DecodeOnlyBlank(es: seq<Entry>)
    requires es == []
    ensures DecodeEntries(EntryLines(es) + [[]]) == Ok(es)
  {
    assert EntryLines(es) + [[]] == [[]];
    assert DecodeEntries([[]]) == DecodeEntries([]);
  }

  /** One more saved entry in front of lines that decode. */
  lemma DecodeEntryLinesStep(es: seq<Entry>)
    requires es != []
    requires '\n' !in EntryLine(es[0]) && Strip(EntryLine(es[0])) == EntryLine(es[0]) && EntryLine(es[0]) != []
    requires ParseEntryLine(EntryLine(es[0])) == Ok(es[0])
    requires DecodeEntries(EntryLines(es[1..]) + [[]]) == Ok(es[1..])
    ensures DecodeEntries(EntryLines(es) + [[]]) == Ok(es)
  {
    var head := EntryLine(es[0]);
    var rest := EntryLines(es[1..]) + [[]];
    EntryLinesCons(es);
    DecodeEntriesCons(head, rest, es[0], es[1..]);
    HeadTail(es);
  }

  /** The saved lines start with the first entry's line. */
  lemma EntryLinesCons(es: seq<Entry>)
    requires es != []
    ensures EntryLines(es) + [[]] == [EntryLine(es[0])] + (EntryLines(es[1..]) + [[]])
  {
    var a, b := EntryLines(es) + [[]], [EntryLine(es[0])] + (EntryLines(es[1..]) + [[]]);
    assert forall k :: 0 <= k < |a| ==> a[k] == b[k];
  }

  /** A saved pool of well-formed addresses loads back as the same list, order and latencies included. */
  lemma WorkingProxiesRoundTrip(es: seq<Entry>)
    requires forall e :: e in es ==> WellFormedAddress(e.address)
    ensures LoadWorkingProxies(Some(EncodeEntries(es))) == Ok(es)
  {
    forall l | l in EntryLines(es)
      ensures '\n' !in l
    {
      var i :| 0 <= i < |es| && l == EntryLines(es)[i];
      EntryLineTrimmed(es[i]);
    }
    SplitTerminated(EntryLines(es), '\n');
    DecodeEntryLines(es);
  }

  /** A non-blank line without a ',' makes the whole load fail. */
  lemma LoadRejectsLineWithoutComma(line: string)
    requires Strip(line) != [] && ',' !in line && '\n' !in line
    ensures LoadWorkingProxies(Some(line)) == Err("IndexError")
  {
    assert Split(line, '\n') == [line] by {
      assert Join([line], "\n") == line;
      SplitJoin([line], '\n');
    }
    var t := Strip(line);
    assert ',' !in t by {
      LStripSuffix(line);
      assert forall c :: c in t ==> c in line;
    }
    assert Split(t, ',') == [t] by {
      assert Join([t], ",") == t;
      SplitJoin([t], ',');
    }
  }

  /** A non-blank line whose latency field is no numeral makes the whole load fail. */
  lemma LoadRejectsBadLatency(address: string, latency: string)
    requires ',' !in address && ',' !in latency && '\n' !in address && '\n' !in latency
    requires Trimmed(address + "," + latency)
    requires ParseLatency(latency).None?
    ensures LoadWorkingProxies(Some(address + "," + latency)) == Err("ValueError")
  {
    var line := address + "," + latency;
    assert Split(line, '\n') == [line] by {
      assert '\n' !in line;
      assert Join([line], "\n") == line;
      SplitJoin([line], '\n');
    }
    StripTrimmed(line);
    SplitTwo(address, latency, ',');
  }

  /* ---------------------------------------------------------------------------
   * The pool object
   * ------------------------------------------------------------------------- */

  /**
   * `ProxyManager`: the pool and the blacklist, updated in place, and the text of the
   * two files it writes through to.
   */
  class ProxyPool {
    var proxies: seq<Entry>
    var blacklist: set<string>
    var workingFile: Option<string>
    var blacklistFile: Option<string>

    function State(): PoolState
      reads this`proxies, this`blacklist
    {
      PoolState(proxies, blacklist)
    }

    /** The blacklist file holds the blacklist, as far as a newline-free blacklist can be reloaded. */
    predicate BlacklistSaved()
      reads this
    {
      && blacklistFile.Some?
      && ((forall a :: a in blacklist ==> '\n' !in a && '\r' !in a) ==> LoadBlacklist(blacklistFile) == ReloadedBlacklist(blacklist))
    }

    /**
     * `__new__` on first use: both fields are loaded from the files (lines 17-22). A
     * malformed working-proxies file raises out of the constructor, so it must parse.
     */
    constructor (workingText: Option<string>, blacklistText: Option<string>)
      requires LoadWorkingProxies(workingText).Ok?
      ensures State() == PoolState(LoadWorkingProxies(workingText).value, LoadBlacklist(blacklistText))
      ensures workingFile == workingText && blacklistFile == blacklistText
    {
      proxies := LoadWorkingProxies(workingText).value;
      blacklist := LoadBlacklist(blacklistText);
      workingFile := workingText;
      blacklistFile := blacklistText;
    }

    /** `save_blacklist` (lines 31-34). */
    method SaveBlacklist()
      modifies this`blacklistFile
      ensures BlacklistSaved()
    {
      var text := EncodeBlacklist(blacklist);
      blacklistFile := Some(text);
      if forall a :: a in blacklist ==> '\n' !in a {
        LoadEncodedBlacklist(text, blacklist);
      }
    }

    /** `save_working_proxies` (lines 47-50). */
    method SaveWorkingProxies()
      modifies this`workingFile
      ensures workingFile == Some(EncodeEntries(proxies))
    {
      var text := EncodeWorkingProxies(proxies);
      workingFile := Some(text);
    }

    /**
     * `update_proxy_list` (lines 52-97) with the download and the probes as oracles.
     * A failed fetch changes nothing; otherwise the pool is replaced and saved, then
     * the blacklist grows and is saved.
     */
    method UpdateProxyList(fetch: Fetch, probes: seq<Probe>, maxToTest: nat)
      modifies this
      ensures State() == Refreshed(old(State()), fetch, probes, maxToTest)
      ensures fetch.FetchFailed? ==> unchanged(this)
      ensures fetch.Fetched? ==> workingFile == Some(EncodeEntries(proxies)) && BlacklistSaved()
    {
      if fetch.FetchFailed? {
        return;
      }
      var next := Refreshed(State(), fetch, probes, maxToTest);
      proxies := next.proxies;
      SaveWorkingProxies();
      blacklist := next.blacklist;
      SaveBlacklist();
    }

    /**
     * `get_proxy` (lines 99-113): the head of the pool, untouched; or, on an empty
     * pool, one refresh and then the new head or `None`. The second call happens
     * only on a non-empty pool, so it cannot recurse again.
     */
    method GetProxy(fetch: Fetch, probes: seq<Probe>) returns (d: Option<Descriptor>)
      modifies this
      decreases if proxies == [] then 1 else 0
      ensures old(proxies) != [] ==> d == Some(DescriptorFor(old(proxies)[0].address)) && unchanged(this)
      ensures old(proxies) == [] ==> State() == Refreshed(old(State()), fetch, probes, DefaultMaxToTest)
      ensures old(proxies) == [] ==> d == if proxies == [] then None else Some(DescriptorFor(proxies[0].address))
      ensures old(proxies) == [] && fetch.FetchFailed? ==> d == None && unchanged(this)
      ensures old(proxies) == [] && fetch.Fetched? ==> workingFile == Some(EncodeEntries(proxies)) && BlacklistSaved()
    {
      if proxies != [] {
        d := Some(DescriptorFor(proxies[0].address));
      } else {
        UpdateProxyList(fetch, probes, DefaultMaxToTest);
        if proxies != [] {
          d := GetProxy(fetch, probes);
        } else {
          d := None;
        }
      }
    }

    /**
     * `remove_and_update_proxy` (lines 115-134). `ok` is false when the descriptor's
     * "http" text has no "//": the `IndexError` is raised before anything changes.
     * Otherwise the address leaves the pool and joins the blacklist, only the blacklist
     * is saved, and a refresh follows when fewer than `LowWaterMark` entries remain.
     */
    method RemoveAndUpdateProxy(nonFunctional: Descriptor, fetch: Fetch, probes: seq<Probe>) returns (ok: bool)
      modifies this
      ensures ok == AddressOf(nonFunctional).Some?
      ensures !ok ==> unchanged(this)
      ensures ok ==> State() == Reported(old(State()), AddressOf(nonFunctional).value, fetch, probes)
      ensures ok ==> BlacklistSaved()
      ensures ok ==>
        var refreshed := |Evicted(old(State()), AddressOf(nonFunctional).value).proxies| < LowWaterMark && fetch.Fetched?;
        workingFile == if refreshed then Some(EncodeEntries(proxies)) else old(workingFile)
    {
      var address := AddressOf(nonFunctional);
      if address.None? {
        return false;
      }
      proxies := WithoutAddress(proxies, address.value);
      blacklist := blacklist + {address.value};
      SaveBlacklist();
      if |proxies| < LowWaterMark {
        UpdateProxyList(fetch, probes, DefaultMaxToTest);
      }
      return true;
    }
  }
}

=== FILE: results.dfy ===
/** Failure-carrying values shared by the whole model. */
module Results {

  /** A value that may be absent (Python's `None`, JavaScript's `undefined`). */
  datatype Option<+T> = None | Some(value: T)

  /** A value, or the name of the exception that the source raises instead. */
  datatype Result<+T> = Ok(value: T) | Err(error: string)
}

=== FILE: strings.dfy ===
/**
 * Text primitives with Python's semantics: whitespace as `str.isspace` sees it,
 * `strip`, `split` on one character, `join`, and decimal numerals.
 */
module Strings {
  import opened Results

  /**
   * The characters `str.isspace()` accepts; also what the regex class `\s` matches
   * in a `str` pattern.
   */
  const SpaceChars: set<char> := {
    ' ', '\t', '\n', '\U{B}', '\U{C}', '\r', '\U{1C}', '\U{1D}', '\U{1E}', '\U{1F}',
    '\U{85}', '\U{A0}', '\U{1680}',
    '\U{2000}', '\U{2001}', '\U{2002}', '\U{2003}', '\U{2004}', '\U{2005}', '\U{2006}',
    '\U{2007}', '\U{2008}', '\U{2009}', '\U{200A}',
    '\U{2028}', '\U{2029}', '\U{202F}', '\U{205F}', '\U{3000}'
  }

  predicate IsSpace(c: char) {
    c in SpaceChars
  }

  predicate IsDigit(c: char) {
    '0' <= c <= '9'
  }

  /** No decimal digit is whitespace. */
  lemma DigitNotSpace(c: char)
    requires IsDigit(c)
    ensures !IsSpace(c)
  {
  }

  predicate IsDigits(s: string) {
    forall i :: 0 <= i < |s| ==> IsDigit(s[i])
  }

  /** Neither the first nor the last character is whitespace. */
  predicate Trimmed(s: string) {
    s == [] || (!IsSpace(s[0]) && !IsSpace(s[|s| - 1]))
  }

  /** `s.lstrip()`: drops the leading whitespace and nothing else. */
  function LStrip(s: string): (r: string)
    ensures |r| <= |s|
    ensures r == [] || !IsSpace(r[0])
    ensures forall i :: 0 <= i < |s| - |r| ==> IsSpace(s[i])
  {
    if s != [] && IsSpace(s[0]) then
      var r := LStrip(s[1..]);
      assert forall i :: 1 <= i < |s| - |r| ==> s[i] == s[1..][i - 1];
      r
    else s
  }

  /**
   * What `lstrip` leaves is a suffix of its input. Kept out of `LStrip`'s own contract:
   * as a postcondition of the recursive function it lets the solver unfold suffixes of
   * suffixes without end.
   */
  lemma {:induction false} LStripSuffix(s: string)
    ensures LStrip(s) == s[|s| - |LStrip(s)|..]
    decreases |s|
  {
    if s != [] && IsSpace(s[0]) {
      LStripSuffix(s[1..]);
    }
  }

  /** `s.rstrip()`: drops the trailing whitespace and nothing else. */
  function RStrip(s: string): (r: string)
    ensures |r| <= |s| && r == s[..|r|]
    ensures r == [] || !IsSpace(r[|r| - 1])
    ensures forall i :: |r| <= i < |s| ==> IsSpace(s[i])
  {
    if s != [] && IsSpace(s[|s| - 1]) then RStrip(s[..|s| - 1]) else s
  }

  /** `s.strip()`. */
  function Strip(s: string): (r: string)
    ensures Trimmed(r)
  {
    RStrip(LStrip(s))
  }

  /** Stripping a string that has no whitespace at either end changes nothing. */
  lemma StripTrimmed(s: string)
    requires Trimmed(s)
    ensures Strip(s) == s
  {
  }

  /** `lstrip` removes exactly a whitespace prefix in front of a text that starts with non-whitespace. */
  lemma {:induction false} LStripPadded(pre: string, rest: string)
    requires forall i :: 0 <= i < |pre| ==> IsSpace(pre[i])
    requires rest != [] && !IsSpace(rest[0])
    ensures LStrip(pre + rest) == rest
  {
    if pre != [] {
      assert (pre + rest)[1..] == pre[1..] + rest;
      LStripPadded(pre[1..], rest);
    } else {
      assert pre + rest == rest;
    }
  }

  /** `lstrip` of nothing but whitespace is empty. */
  lemma {:induction false} LStripBlank(s: string)
    requires forall i :: 0 <= i < |s| ==> IsSpace(s[i])
    ensures LStrip(s) == []
  {
    if s != [] {
      assert forall i :: 0 <= i < |s| - 1 ==> s[1..][i] == s[i + 1];
      LStripBlank(s[1..]);
    }
  }

  /** `rstrip` removes exactly a whitespace suffix behind a text that ends with non-whitespace. */
  lemma {:induction false} RStripPadded(rest: string, post: string)
    requires forall i :: 0 <= i < |post| ==> IsSpace(post[i])
    requires rest != [] && !IsSpace(rest[|rest| - 1])
    ensures RStrip(rest + post) == rest
  {
    if post != [] {
      var s := rest + post;
      assert s[..|s| - 1] == rest + post[..|post| - 1];
      RStripPadded(rest, post[..|post| - 1]);
    } else {
      assert rest + post == rest;
    }
  }

  /** Stripping removes exactly the whitespace padding around a trimmed core. */
  lemma StripPadded(pre: string, core: string, post: string)
    requires forall i :: 0 <= i < |pre| ==> IsSpace(pre[i])
    requires forall i :: 0 <= i < |post| ==> IsSpace(post[i])
    requires core != [] && Trimmed(core)
    ensures Strip(pre + core + post) == core
  {
    assert pre + core + post == pre + (core + post);
    LStripPadded(pre, core + post);
    RStripPadded(core, post);
  }

  /** A non-empty sequence is its first element in front of the rest. */
  lemma HeadTail<T>(s: seq<T>)
    requires s != []
    ensures [s[0]] + s[1..] == s
  {
  }

  /** A sequence that starts with `a` and ends with `b` is `a`, its middle, then `b`. */
  lemma Framed<T>(s: seq<T>, a: seq<T>, b: seq<T>)
    requires |s| >= |a| + |b| && s[..|a|] == a && s[|s| - |b|..] == b
    ensures s == a + s[|a|..|s| - |b|] + b
  {
    assert s == s[..|a|] + s[|a|..|s| - |b|] + s[|s| - |b|..];
  }

  /** The three parts of `a + m + b` are found back by position. */
  lemma FrameParts<T>(a: seq<T>, m: seq<T>, b: seq<T>)
    ensures var s := a + m + b;
      s[..|a|] == a && s[|s| - |b|..] == b && s[|a|..|s| - |b|] == m
  {
  }

  /** Number of occurrences of `c` in `s`. */
  function Count(s: string, c: char): nat {
    if s == [] then 0 else (if s[0] == c then 1 else 0) + Count(s[1..], c)
  }

  /** Python's `s.split(sep)` for a one-character separator: never empty, keeps empty pieces. */
  function Split(s: string, sep: char): (parts: seq<string>)
    ensures |parts| >= 1
  {
    if s == [] then [[]]
    else
      var rest := Split(s[1..], sep);
      if s[0] == sep then [[]] + rest else [[s[0]] + rest[0]] + rest[1..]
  }

  /** Python's `sep.join(parts)`. */
  function Join(parts: seq<string>, sep: string): string {
    if |parts| == 0 then []
    else if |parts| == 1 then parts[0]
    else parts[0] + sep + Join(parts[1..], sep)
  }

  /** Every piece followed by `sep`: what a loop of `file.write(piece + "\n")` leaves in a file. */
  function Terminated(parts: seq<string>, sep: char): string {
    if parts == [] then [] else parts[0] + [sep] + Terminated(parts[1..], sep)
  }

  /** Joining the pieces of a split gives back the text. */
  lemma {:induction false} JoinSplit(s: string, sep: char)
    ensures Join(Split(s, sep), [sep]) == s
  {
    if s != [] {
      JoinSplit(s[1..], sep);
      var rest := Split(s[1..], sep);
      if s[0] != sep && |rest| > 1 {
        assert Join(rest, [sep]) == rest[0] + [sep] + Join(rest[1..], [sep]);
      }
    }
  }

  /** A split has one piece more than the text has separators. */
  lemma {:induction false} SplitCount(s: string, sep: char)
    ensures |Split(s, sep)| == Count(s, sep) + 1
  {
    if s != [] {
      SplitCount(s[1..], sep);
    }
  }

  /** No piece of a split contains the separator. */
  lemma {:induction false} SplitPiecesFree(s: string, sep: char)
    ensures forall p :: p in Split(s, sep) ==> sep !in p
  {
    if s != [] {
      SplitPiecesFree(s[1..], sep);
      var rest := Split(s[1..], sep);
      if s[0] != sep {
        assert sep !in rest[0];
        forall p | p in Split(s, sep) ensures sep !in p {
          if p != [s[0]] + rest[0] {
            assert p in rest[1..];
          }
        }
      }
    }
  }

  /** Splitting text that starts with a separator-free prefix glues that prefix to the first piece. */
  lemma {:induction false} SplitPrefix(x: string, s: string, sep: char)
    requires sep !in x
    ensures Split(x + s, sep) == [x + Split(s, sep)[0]] + Split(s, sep)[1..]
  {
    if x != [] {
      assert (x + s)[1..] == x[1..] + s;
      assert (x + s)[0] == x[0] && x[0] != sep;
      SplitPrefix(x[1..], s, sep);
      var parts := Split(s, sep);
      var rest := Split(x[1..] + s, sep);
      assert rest[0] == x[1..] + parts[0] && rest[1..] == parts[1..];
      assert [x[0]] + (x[1..] + parts[0]) == x + parts[0];
    } else {
      var parts := Split(s, sep);
      assert x + s == s;
      assert x + parts[0] == parts[0];
      assert parts == [parts[0]] + parts[1..];
    }
  }

  /** Splitting a join of separator-free pieces gives back the pieces. */
  lemma {:induction false} SplitJoin(parts: seq<string>, sep: char)
    requires |parts| >= 1
    requires forall p :: p in parts ==> sep !in p
    ensures Split(Join(parts, [sep]), sep) == parts
  {
    if |parts| == 1 {
      SplitPrefix(parts[0], [], sep);
      assert parts[0] + [] == parts[0];
      assert Join(parts, [sep]) == parts[0];
      assert parts == [parts[0]];
    } else {
      var tail := Join(parts[1..], [sep]);
      SplitJoin(parts[1..], sep);
      assert Join(parts, [sep]) == parts[0] + ([sep] + tail);
      SplitPrefix(parts[0], [sep] + tail, sep);
      assert ([sep] + tail)[0] == sep && ([sep] + tail)[1..] == tail;
      var r := Split([sep] + tail, sep);
      assert r == [[]] + parts[1..];
      assert r[0] == [] && r[1..] == parts[1..];
      assert parts[0] + r[0] == parts[0];
      assert parts == [parts[0]] + parts[1..];
    }
  }

  /** Two separator-free fields around one separator split into exactly those fields. */
  lemma SplitTwo(a: string, b: string, sep: char)
    requires sep !in a && sep !in b
    ensures Split(a + [sep] + b, sep) == [a, b]
  {
    JoinTwo(a, b, [sep]);
    SplitJoin([a, b], sep);
  }

  /** Three separator-free fields around two separators split into exactly those fields. */
  lemma SplitThree(a: string, b: string, c: string, sep: char)
    requires sep !in a && sep !in b && sep !in c
    ensures Split(a + [sep] + b + [sep] + c, sep) == [a, b, c]
  {
    JoinTwo(b, c, [sep]);
    JoinThree(a, b, c, [sep]);
    SplitJoin([a, b, c], sep);
  }

  lemma JoinTwo(a: string, b: string, sep: string)
    ensures Join([a, b], sep) == a + sep + b
  {
    assert [a, b][1..] == [b];
  }

  lemma JoinThree(a: string, b: string, c: string, sep: string)
    requires Join([b, c], sep) == b + sep + c
    ensures Join([a, b, c], sep) == a + sep + b + sep + c
  {
    assert [a, b, c][1..] == [b, c];
    assert a + sep + (b + sep + c) == a + sep + b + sep + c;
  }

  /** Separator-terminated pieces are the join of the pieces and one final empty piece. */
  lemma {:induction false} TerminatedIsJoin(parts: seq<string>, sep: char)
    ensures Terminated(parts, sep) == Join(parts + [[]], [sep])
  {
    if parts != [] {
      TerminatedIsJoin(parts[1..], sep);
      assert (parts + [[]])[1..] == parts[1..] + [[]];
    }
  }

  /** Splitting separator-terminated pieces gives the pieces and a final empty piece. */
  lemma SplitTerminated(parts: seq<string>, sep: char)
    requires forall p :: p in parts ==> sep !in p
    ensures Split(Terminated(parts, sep), sep) == parts + [[]]
  {
    TerminatedIsJoin(parts, sep);
    SplitJoin(parts + [[]], sep);
  }

  /** Appending one more piece to a terminated text. */
  lemma {:induction false} TerminatedAppend(parts: seq<string>, p: string, sep: char)
    ensures Terminated(parts + [p], sep) == Terminated(parts, sep) + p + [sep]
  {
    if parts != [] {
      assert (parts + [p])[1..] == parts[1..] + [p];
      TerminatedAppend(parts[1..], p, sep);
    }
  }

  function DigitChar(d: nat): (c: char)
    requires d < 10
    ensures IsDigit(c)
  {
    (('0' as int) + d) as char
  }

  /** The decimal numeral of `n`, without sign or leading zeros (`str(n)` / `n.toString()`). */
  function NatToString(n: nat): (s: string)
    ensures s != [] && IsDigits(s)
    ensures n > 0 ==> s[0] != '0'
  {
    if n < 10 then [DigitChar(n)] else NatToString(n / 10) + [DigitChar(n % 10)]
  }

  /** The value of a string of decimal digits (leading zeros allowed). */
  function DigitsValue(s: string): nat
    requires IsDigits(s)
  {
    if s == [] then 0 else DigitsValue(s[..|s| - 1]) * 10 + (s[|s| - 1] as int - '0' as int)
  }

  /** A non-empty run of decimal digits, read as a number. */
  function ParseNat(s: string): (r: Option<nat>)
    ensures r.Some? <==> s != [] && IsDigits(s)
  {
    if s != [] && IsDigits(s) then Some(DigitsValue(s)) else None
  }

  /** Reading back a numeral gives the number. */
  lemma {:induction false} DigitsValueOfNat(n: nat)
    ensures DigitsValue(NatToString(n)) == n
  {
    if n >= 10 {
      var s := NatToString(n);
      assert s[..|s| - 1] == NatToString(n / 10);
      DigitsValueOfNat(n / 10);
    }
  }

  lemma NatRoundTrip(n: nat)
    ensures ParseNat(NatToString(n)) == Some(n)
  {
    DigitsValueOfNat(n);
  }

  /** Leading zeros do not change the value of a numeral. */
  lemma {:induction false} LeadingZero(s: string)
    requires IsDigits(s)
    ensures IsDigits("0" + s) && DigitsValue("0" + s) == DigitsValue(s)
  {
    if s != [] {
      assert ("0" + s)[..|"0" + s| - 1] == "0" + s[..|s| - 1];
      LeadingZero(s[..|s| - 1]);
    }
  }

  /** Numerals of different numbers differ: distinct numbers print differently. */
  lemma NatToStringInjective(m: nat, n: nat)
    requires NatToString(m) == NatToString(n)
    ensures m == n
  {
    DigitsValueOfNat(m);
    DigitsValueOfNat(n);
  }

  /** JavaScript's `n.toString()` on an integer. */
  function IntToString(i: int): (s: string)
    ensures s != []
  {
    if i < 0 then "-" + NatToString(-i) else NatToString(i)
  }
}

=== FILE: video_overview.dfy ===
/**
 * The prompt and input preparation of the video overview endpoint
 * (backend/app/video_overview/video_overview.py): the system prompt built from the
 * chapter titles, the transcript text joined from its segments, and the caps the
 * testing mode puts on both.
 */
module VideoOverview {
  import opened Results
  import opened Strings
  import VideoOverviewServices

  /** `testing`, fixed in the source. */
  const Testing: bool := true

  /** `chapter_max_range`: the most chapters the model is asked for, and kept in testing. */
  const ChapterMaxRange: nat := if Testing then 5 else 10

  /** `max_transcript_length`. */
  const MaxTranscriptLength: nat := if Testing then 4000 else 20000

  /** The prompt text in front of the chapter guideline. */
  const Intro: string :=
    "\nBe concise. Your job is to generate a video overview given a video transcript. \n"
    + "Note that the transcript is not perfect, so you may need to assume where sentences start and end.\n"
    + "Follow these guidelines:\n"

  /** The prompt text behind the chapter guideline. */
  const Outro: string :=
    "\n- Output 2-4 key points per chapter. Each key point should be a clear short sentence, like a takeaway.\n"
    + "- Output 2-4 key quotes per chapter. Key quotes must be short and exact.\n"

  /** The first line of `chapter_exist_str`, up to its newline. */
  const UseChaptersHeader: string := "- Use the following chapters: "

  /** `chapter_dne_str`. */
  function ChapterDneLine(maxRange: nat): string {
    "- Create between 3-" + NatToString(maxRange)
      + " chapters depending on the density / complexity of the transcript."
  }

  /** `f"{i}: {chapter}"`. */
  function NumberedLine(i: nat, title: string): string {
    NatToString(i) + ": " + title
  }

  /** The `enumerate` comprehension: each title behind its position, counted from 0. */
  function NumberedLines(chapters: seq<string>): (lines: seq<string>)
    ensures |lines| == |chapters|
  {
    seq(|chapters|, i requires 0 <= i < |chapters| => NumberedLine(i, chapters[i]))
  }

  /** `chapter_exist_str`. */
  function ChapterExistText(chapters: seq<string>): string {
    UseChaptersHeader + "\n" + Join(NumberedLines(chapters), "\n")
  }

  /** The guideline line(s) chosen by `len(chapters) == 0`. */
  function Guideline(chapters: seq<string>): string {
    if |chapters| == 0 then ChapterDneLine(ChapterMaxRange) else ChapterExistText(chapters)
  }

  /** `get_video_overview_prompt`. */
  function GetVideoOverviewPrompt(chapters: seq<string>): string {
    Intro + Guideline(chapters) + Outro
  }

  /* ---------------------------------------------------------------------------
   * Reading a prompt back
   * ------------------------------------------------------------------------- */

  /** The text between the fixed intro and outro of a prompt, if it has that frame. */
  function GuidelineOf(prompt: string): (g: Option<string>)
    ensures g.Some? ==> prompt == Intro + g.value + Outro
  {
    if |prompt| >= |Intro| + |Outro| && prompt[..|Intro|] == Intro && prompt[|prompt| - |Outro|..] == Outro then
      Framed(prompt, Intro, Outro);
      Some(prompt[|Intro|..|prompt| - |Outro|])
    else None
  }

  /**
   * Drops the `"{i}: "` in front of line `i` (counting from `from`); fails on a line that
   * does not carry its own number.
   */
  function Unnumbered(lines: seq<string>, from: nat): (titles: Option<seq<string>>)
    ensures titles.Some? ==> |titles.value| == |lines|
  {
    if lines == [] then Some([])
    else
      var tag := NatToString(from) + ": ";
      var line := lines[0];
      if |tag| <= |line| && line[..|tag|] == tag then
        match Unnumbered(lines[1..], from + 1)
        case None => None
        case Some(rest) => Some([line[|tag|..]] + rest)
      else None
  }

  /**
   * The chapter titles a guideline lists: none unless it opens with the chapters header,
   * and a failure when a listed line is not numbered in order from 0.
   */
  function ListedTitles(guideline: string): Option<seq<string>> {
    var header := UseChaptersHeader + "\n";
    if |header| <= |guideline| && guideline[..|header|] == header then
      Unnumbered(Split(guideline[|header|..], '\n'), 0)
    else Some([])
  }

  /** Without chapters the guideline asks for 3 to `chapter_max_range` chapters. */
  lemma EmptyGuideline()
    ensures Guideline([]) == "- Create between 3-" + "5"
      + " chapters depending on the density / complexity of the transcript."
  {
    assert DigitChar(5) == '5';
  }

  /** Numbered lines are single lines when the titles are. */
  lemma NumberedLinesSingle(chapters: seq<string>)
    requires forall c :: c in chapters ==> '\n' !in c
    ensures forall line :: line in NumberedLines(chapters) ==> '\n' !in line
  {
    forall line | line in NumberedLines(chapters)
      ensures '\n' !in line
    {
      var i :| 0 <= i < |chapters| && NumberedLines(chapters)[i] == line;
      assert chapters[i] in chapters;
      var digits := NatToString(i);
      assert forall c :: c in digits ==> IsDigit(c);
      assert line == digits + (": " + chapters[i]);
    }
  }

  /** Removing the numbers from the numbered lines gives back the titles. */
  lemma {:induction false} UnnumberedNumbered(chapters: seq<string>, from: nat)
    ensures Unnumbered(seq(|chapters|, i requires 0 <= i < |chapters| => NumberedLine(from + i, chapters[i])), from)
      == Some(chapters)
  {
    var lines := seq(|chapters|, i requires 0 <= i < |chapters| => NumberedLine(from + i, chapters[i]));
    if chapters != [] {
      var tag := NatToString(from) + ": ";
      assert lines[0] == tag + chapters[0];
      assert lines[0][..|tag|] == tag && lines[0][|tag|..] == chapters[0];
      var rest := seq(|chapters| - 1, i requires 0 <= i < |chapters| - 1 => NumberedLine(from + 1 + i, chapters[1..][i]));
      assert lines[1..] == rest;
      UnnumberedNumbered(chapters[1..], from + 1);
      HeadTail(chapters);
    }
  }

  /** The guideline line of an empty chapter list does not open with the chapters header. */
  lemma DneNotHeader()
    ensures ListedTitles(ChapterDneLine(ChapterMaxRange)) == Some([])
  {
    var line := ChapterDneLine(ChapterMaxRange);
    var header := UseChaptersHeader + "\n";
    assert line[2] == 'C' && header[2] == 'U';
    assert line[..|header|][2] != header[2];
  }

  /**
   * The prompt lists exactly the given chapters, numbered from 0 in order, one per line:
   * reading the titles back from the prompt gives the list (newline-free titles).
   */
  lemma PromptRoundTrip(chapters: seq<string>)
    requires forall c :: c in chapters ==> '\n' !in c
    ensures GuidelineOf(GetVideoOverviewPrompt(chapters)) == Some(Guideline(chapters))
    ensures ListedTitles(Guideline(chapters)) == Some(chapters)
  {
    FrameParts(Intro, Guideline(chapters), Outro);
    if chapters == [] {
      DneNotHeader();
    } else {
      ExistTitles(chapters);
    }
  }

  /** The titles read back from the chapters guideline are the chapters. */
  lemma ExistTitles(chapters: seq<string>)
    requires chapters != [] && forall c :: c in chapters ==> '\n' !in c
    ensures ListedTitles(ChapterExistText(chapters)) == Some(chapters)
  {
    var header := UseChaptersHeader + "\n";
    var lines := NumberedLines(chapters);
    FrameParts(header, Join(lines, "\n"), []);
    assert ChapterExistText(chapters) == header + Join(lines, "\n") + [];
    NumberedLinesSingle(chapters);
    SplitJoin(lines, '\n');
    UnnumberedNumbered(chapters, 0);
    assert lines == seq(|chapters|, i requires 0 <= i < |chapters| => NumberedLine(0 + i, chapters[i]));
  }

  /* ---------------------------------------------------------------------------
   * The endpoint's input preparation (lines 78-90)
   * ------------------------------------------------------------------------- */

  /** `" ".join(i["text"] for i in transcript)`. */
  function TranscriptText(texts: seq<string>): string {
    Join(texts, " ")
  }

  /** Where segment `i` starts in the joined transcript. */
  function Offset(texts: seq<string>, i: nat): nat
    requires i <= |texts|
  {
    if i == 0 then 0 else |texts[0]| + 1 + Offset(texts[1..], i - 1)
  }

  /** Each segment sits at its offset, followed by one space unless it is the last. */
  lemma {:induction false} TranscriptSegments(texts: seq<string>, i: nat)
    requires i < |texts|
    ensures Offset(texts, i) + |texts[i]| <= |TranscriptText(texts)|
    ensures TranscriptText(texts)[Offset(texts, i)..Offset(texts, i) + |texts[i]|] == texts[i]
    ensures i + 1 < |texts| ==>
      Offset(texts, i) + |texts[i]| < |TranscriptText(texts)|
      && TranscriptText(texts)[Offset(texts, i) + |texts[i]|] == ' '
    ensures i + 1 == |texts| ==> Offset(texts, i) + |texts[i]| == |TranscriptText(texts)|
  {
    var t := TranscriptText(texts);
    if |texts| > 1 {
      var rest := TranscriptText(texts[1..]);
      var k := |texts[0]| + 1;
      assert t == texts[0] + " " + rest;
      if i > 0 {
        TranscriptSegments(texts[1..], i - 1);
        var o := Offset(texts[1..], i - 1);
        assert texts[i] == texts[1..][i - 1];
        Shifted(texts[0] + " ", rest, o, |texts[i]|);
      } else {
        assert t[..|texts[0]|] == texts[0];
      }
    }
  }

  /** A slice of `b`, and the character behind it, found again in `a + b`. */
  lemma Shifted(a: string, b: string, o: nat, n: nat)
    requires o + n <= |b|
    ensures (a + b)[|a| + o..|a| + o + n] == b[o..o + n]
    ensures o + n < |b| ==> (a + b)[|a| + o + n] == b[o + n]
  {
    assert (a + b)[|a|..] == b;
  }

  /** `transcript_text[:max_transcript_length]` when it is longer. */
  function TruncateTranscript(text: string): (r: string)
    ensures |r| <= |text| && r == text[..|r|]
    ensures |r| <= MaxTranscriptLength
    ensures |text| <= MaxTranscriptLength ==> r == text
    ensures |text| > MaxTranscriptLength ==> |r| == MaxTranscriptLength
  {
    if |text| > MaxTranscriptLength then text[..MaxTranscriptLength] else text
  }

  /* ---------------------------------------------------------------------------
   * get_video_chapters (lines 38-68) and its use at lines 80-83
   * ------------------------------------------------------------------------- */

  /** One dict of the list `get_video_chapters` builds: the timestamp kept as text, the title stripped. */
  datatype ChapterDict = ChapterDict(timestamp: string, title: string)

  /**
   * What `get_video_chapters` returns: the list of chapter dicts, or a `VideoMetadata`
   * with the video title and no chapters.
   */
  datatype VideoChapters = ChapterDicts(dicts: seq<ChapterDict>) | Metadata(videoTitle: string)

  /** The comprehension at lines 51-54 over the `re.findall` matches. */
  function DictsOf(ms: seq<VideoOverviewServices.ChapterMatch>): (ds: seq<ChapterDict>)
    ensures |ds| == |ms|
    ensures forall i :: 0 <= i < |ms| ==> ds[i] == ChapterDict(ms[i].timestamp, Strip(ms[i].title))
  {
    seq(|ms|, i requires 0 <= i < |ms| => ChapterDict(ms[i].timestamp, Strip(ms[i].title)))
  }

  /**
   * `get_video_chapters` for a video with title `title`; `description` is `None` when
   * the video is not found or the YouTube request fails after the title was read.
   */
  function GetVideoChapters(title: string, description: Option<string>): VideoChapters {
    match description
    case None => Metadata(title)
    case Some(d) =>
      match VideoOverviewServices.ChaptersSection(d)
      case None => Metadata(title)
      case Some(section) => ChapterDicts(DictsOf(VideoOverviewServices.FindChapterMatches(Strip(section))))
  }

  /**
   * Lines 80-83: the titles handed to the prompt, in order, only the first
   * `chapter_max_range` in testing. Iterating a `VideoMetadata` yields its
   * `(field, value)` pairs, and indexing a pair with "title" raises `TypeError`.
   */
  function OverviewChapters(chapters: VideoChapters): (titles: Result<seq<string>>)
    ensures titles.Err? <==> chapters.Metadata?
    ensures chapters.ChapterDicts? ==>
      var ds := chapters.dicts;
      && |titles.value| == (if Testing && |ds| > ChapterMaxRange then ChapterMaxRange else |ds|)
      && forall i :: 0 <= i < |titles.value| ==> titles.value[i] == ds[i].title
  {
    match chapters
    case Metadata(_) => Err("TypeError")
    case ChapterDicts(ds) =>
      var all := seq(|ds|, i requires 0 <= i < |ds| => ds[i].title);
      Ok(if Testing && |all| > ChapterMaxRange then all[..ChapterMaxRange] else all)
  }

  /** The i-th chapter of the services parser, in terms of the i-th match. */
  lemma {:induction false} ChaptersOfAt(ms: seq<VideoOverviewServices.ChapterMatch>, i: nat)
    requires forall m :: m in ms ==> VideoOverviewServices.IsClock(m.timestamp)
    requires i < |ms|
    ensures VideoOverviewServices.TimestampToSeconds(ms[i].timestamp).Ok?
    ensures VideoOverviewServices.ChaptersOf(ms)[i]
      == VideoOverviewServices.ChapterData(VideoOverviewServices.TimestampToSeconds(ms[i].timestamp).value, Strip(ms[i].title))
  {
    if i == 0 {
      VideoOverviewServices.ChaptersOfHead(ms);
    } else {
      var tail := ms[1..];
      assert forall m :: m in tail ==> m in ms;
      ChaptersOfAt(tail, i - 1);
      VideoOverviewServices.ChaptersOfTail(ms, i);
      assert tail[i - 1] == ms[i];
    }
  }

  /**
   * The endpoint's chapter titles: without a "Chapters:\n" section (or without a
   * description) the request fails with `TypeError`; with one, the titles are those of
   * the services parser `ExtractChapters`, in order, and every kept timestamp text reads
   * as that parser's seconds.
   */
  lemma EndpointChapters(title: string, description: Option<string>)
    ensures var v := GetVideoChapters(title, description);
      OverviewChapters(v).Err? <==> description.None? || VideoOverviewServices.ChaptersSection(description.value).None?
    ensures description.Some? && VideoOverviewServices.ChaptersSection(description.value).Some? ==>
      var v, cs := GetVideoChapters(title, description), VideoOverviewServices.ExtractChapters(description.value);
      && v.ChapterDicts? && |v.dicts| == |cs|
      && forall i :: 0 <= i < |cs| ==>
        v.dicts[i].title == cs[i].title
        && VideoOverviewServices.TimestampToSeconds(v.dicts[i].timestamp) == Ok(cs[i].timeInSecs)
  {
    if description.Some? && VideoOverviewServices.ChaptersSection(description.value).Some? {
      var section := VideoOverviewServices.ChaptersSection(description.value).value;
      var ms := VideoOverviewServices.FindChapterMatches(Strip(section));
      forall i | 0 <= i < |ms|
        ensures VideoOverviewServices.TimestampToSeconds(ms[i].timestamp)
          == Ok(VideoOverviewServices.ChaptersOf(ms)[i].timeInSecs)
        ensures Strip(ms[i].title) == VideoOverviewServices.ChaptersOf(ms)[i].title
      {
        ChaptersOfAt(ms, i);
      }
    }
  }
}

=== FILE: video_overview_services.dfy ===
/**
 * The pure helpers and the two counter rules of
 * backend/app/video_overview/video_overview_services.py.
 */
module VideoOverviewServices {
  import opened Results
  import opened Strings

  /* ---------------------------------------------------------------------------
   * normalize_spacing (lines 18-25)
   * ------------------------------------------------------------------------- */

  /** Positions `i` and `i + 1` of `s` both hold whitespace. */
  predicate SpacePairAt(s: string, i: int)
    requires 0 <= i < |s| - 1
  {
    IsSpace(s[i]) && IsSpace(s[i + 1])
  }

  /** The only whitespace character in `s` is ' '. */
  predicate OnlyBlanks(s: string) {
    forall i :: 0 <= i < |s| && IsSpace(s[i]) ==> s[i] == ' '
  }

  /** No two whitespace characters stand side by side in `s`. */
  predicate NoSpacePairs(s: string) {
    forall i :: 0 <= i < |s| - 1 ==> !SpacePairAt(s, i)
  }

  predicate SingleSpaced(s: string) {
    OnlyBlanks(s) && NoSpacePairs(s)
  }

  /** Putting one character in front keeps a text pair-free unless both are whitespace. */
  lemma PrependKeepsNoSpacePairs(c: char, t: string)
    requires NoSpacePairs(t)
    requires t == [] || !IsSpace(c) || !IsSpace(t[0])
    ensures NoSpacePairs([c] + t)
  {
    var r := [c] + t;
    forall i | 0 <= i < |r| - 1
      ensures !SpacePairAt(r, i)
    {
      if i > 0 {
        assert SpacePairAt(r, i) == SpacePairAt(t, i - 1);
      }
    }
  }

  /** One character in front of a single-spaced text, under the same condition. */
  lemma PrependSingleSpaced(c: char, t: string)
    requires SingleSpaced(t) && (IsSpace(c) ==> c == ' ')
    requires t == [] || !IsSpace(c) || !IsSpace(t[0])
    ensures SingleSpaced([c] + t)
  {
    PrependKeepsNoSpacePairs(c, t);
    var r := [c] + t;
    forall i | 0 <= i < |r| && IsSpace(r[i])
      ensures r[i] == ' '
    {
      if i > 0 {
        assert r[i] == t[i - 1];
      }
    }
  }

  /** After a leading run of whitespace, the text left over ends where `s` ends. */
  lemma RunEnd(s: string)
    requires s != [] && IsSpace(s[0])
    ensures var rest := LStrip(s[1..]);
      !IsSpace(s[|s| - 1]) ==> rest != [] && rest[|rest| - 1] == s[|s| - 1] && !IsSpace(rest[|rest| - 1])
  {
    var t := s[1..];
    LStripSuffix(t);
    if LStrip(t) == [] && |s| > 1 {
      assert IsSpace(t[|t| - 1]);
    }
  }

  /** `re.sub(r"\s+", " ", s)`: every maximal run of whitespace becomes one space. */
  function CollapseSpaces(s: string): (r: string)
    ensures SingleSpaced(r)
    decreases |s|
  {
    if s == [] then []
    else if IsSpace(s[0]) then
      var cr := CollapseSpaces(LStrip(s[1..]));
      PrependSingleSpaced(' ', cr);
      " " + cr
    else
      var cr := CollapseSpaces(s[1..]);
      PrependSingleSpaced(s[0], cr);
      [s[0]] + cr
  }

  /** Collapsing keeps a non-whitespace first character where it is. */
  lemma CollapseKeepsFirst(s: string)
    ensures s != [] && !IsSpace(s[0]) ==> var r := CollapseSpaces(s); r != [] && r[0] == s[0]
  {
  }

  lemma LastOfPrepend(c: char, t: string)
    ensures var r := [c] + t; r[|r| - 1] == if t == [] then c else t[|t| - 1]
  {
  }

  /** Collapsing keeps a non-whitespace last character where it is. */
  lemma {:induction false} CollapseKeepsLast(s: string)
    ensures s != [] && !IsSpace(s[|s| - 1]) ==> var r := CollapseSpaces(s); r != [] && r[|r| - 1] == s[|s| - 1]
    decreases |s|
  {
    if s == [] || IsSpace(s[|s| - 1]) {
    } else if IsSpace(s[0]) {
      var rest := LStrip(s[1..]);
      assert CollapseSpaces(s) == [' '] + CollapseSpaces(rest);
      RunEnd(s);
      CollapseKeepsLast(rest);
      LastOfPrepend(' ', CollapseSpaces(rest));
    } else {
      var t := s[1..];
      assert CollapseSpaces(s) == [s[0]] + CollapseSpaces(t);
      if t != [] {
        assert t[|t| - 1] == s[|s| - 1];
        CollapseKeepsLast(t);
      }
      LastOfPrepend(s[0], CollapseSpaces(t));
    }
  }

  /** `s.replace("\n", " ")`. */
  function ReplaceNewlines(s: string): (r: string)
    ensures |r| == |s| && '\n' !in r
  {
    seq(|s|, i requires 0 <= i < |s| => if s[i] == '\n' then ' ' else s[i])
  }

  /** `normalize_spacing`: strip, collapse whitespace runs, replace newlines. */
  function NormalizeSpacing(text: string): (r: string)
    ensures Trimmed(r) && SingleSpaced(r) && '\n' !in r
  {
    var t := Strip(text);
    var collapsed := CollapseSpaces(t);
    CollapseKeepsFirst(t);
    CollapseKeepsLast(t);
    ReplaceNewlinesIdentity(collapsed);
    ReplaceNewlines(collapsed)
  }

  /** Replacing newlines changes nothing once the only whitespace left is ' '. */
  lemma ReplaceNewlinesIdentity(s: string)
    requires SingleSpaced(s)
    ensures ReplaceNewlines(s) == s
  {
    assert forall i :: 0 <= i < |s| && s[i] == '\n' ==> IsSpace(s[i]);
  }

  /** The maximal run of non-whitespace at the front of `s`. */
  function FrontWord(s: string): (w: string)
    ensures |w| <= |s| && w == s[..|w|]
    ensures forall i :: 0 <= i < |w| ==> !IsSpace(w[i])
    ensures |w| == |s| || IsSpace(s[|w|])
  {
    if s == [] || IsSpace(s[0]) then [] else [s[0]] + FrontWord(s[1..])
  }

  /** Python's `s.split()`: the maximal runs of non-whitespace, in order. */
  function Words(s: string): (ws: seq<string>)
    decreases |s|
  {
    var t := LStrip(s);
    if t == [] then []
    else
      var w := FrontWord(t);
      assert |w| >= 1 by { assert !IsSpace(t[0]); }
      [w] + Words(t[|w|..])
  }

  /** A word: non-empty, no whitespace. */
  predicate IsWord(w: string) {
    w != [] && forall i :: 0 <= i < |w| ==> !IsSpace(w[i])
  }

  /** Every piece `split()` returns is a word. */
  lemma {:induction false} WordsAreWords(s: string)
    ensures forall w :: w in Words(s) ==> IsWord(w)
    decreases |s|
  {
    var t := LStrip(s);
    if t != [] {
      var w := FrontWord(t);
      assert !IsSpace(t[0]);
      WordsAreWords(t[|w|..]);
    }
  }

  /** Collapsing a word followed by anything keeps the word and collapses the rest. */
  lemma {:induction false} CollapseAfterWord(w: string, rest: string)
    requires forall i :: 0 <= i < |w| ==> !IsSpace(w[i])
    ensures CollapseSpaces(w + rest) == w + CollapseSpaces(rest)
  {
    if w == [] {
      assert w + rest == rest;
    } else {
      var c := w + rest;
      var tail := w[1..];
      var cr := CollapseSpaces(rest);
      assert CollapseSpaces(c) == [w[0]] + CollapseSpaces(tail + rest) by {
        assert c[1..] == tail + rest;
        assert c[0] == w[0] && !IsSpace(c[0]);
      }
      assert CollapseSpaces(tail + rest) == tail + cr by {
        forall i | 0 <= i < |tail|
          ensures !IsSpace(tail[i])
        {
          assert tail[i] == w[i + 1];
        }
        CollapseAfterWord(tail, rest);
      }
      assert [w[0]] + (tail + cr) == w + cr;
    }
  }

  /** `rstrip` leaves a front part alone when something non-blank follows it. */
  lemma {:induction false} RStripAfter(a: string, b: string)
    requires RStrip(b) != []
    ensures RStrip(a + b) == a + RStrip(b)
    decreases |b|
  {
    var c := a + b;
    if b != [] && IsSpace(b[|b| - 1]) {
      assert c[..|c| - 1] == a + b[..|b| - 1];
      RStripAfter(a, b[..|b| - 1]);
    } else {
      assert b != [];
    }
  }

  /** Words of a text that starts with non-whitespace do not change under an extra `lstrip`. */
  lemma WordsOfLStripped(s: string)
    ensures Words(LStrip(s)) == Words(s)
  {
    var t := LStrip(s);
    assert LStrip(t) == t;
  }

  /**
   * The core of `normalize_spacing`: for text without leading whitespace, collapsing
   * the right-stripped text is joining its words with single spaces.
   */
  lemma {:induction false} CollapseIsJoinWords(s: string)
    requires s == [] || !IsSpace(s[0])
    ensures CollapseSpaces(RStrip(s)) == Join(Words(s), " ")
    decreases |s|
  {
    if s != [] {
      var w := FrontWord(s);
      var rest := s[|w|..];
      assert IsWord(w) by {
        assert !IsSpace(s[0]);
      }
      assert s == w + rest;
      var v := LStrip(rest);
      LStripSuffix(rest);
      if v == [] {
        assert forall i :: 0 <= i < |rest| ==> IsSpace(rest[i]);
        LastWord(w, rest);
      } else {
        var sp := rest[..|rest| - |v|];
        assert rest == sp + v;
        assert sp != [] by {
          assert IsSpace(rest[0]);
          assert !IsSpace(v[0]);
        }
        forall i | 0 <= i < |sp|
          ensures IsSpace(sp[i])
        {
          assert sp[i] == rest[i];
        }
        CollapseIsJoinWords(v);
        WordThenMore(w, sp, v);
      }
    }
  }

  /** The last word, followed only by whitespace. */
  lemma LastWord(w: string, post: string)
    requires IsWord(w)
    requires forall i :: 0 <= i < |post| ==> IsSpace(post[i])
    ensures CollapseSpaces(RStrip(w + post)) == Join(Words(w + post), " ")
  {
    RStripPadded(w, post);
    CollapseWord(w);
    WordThenBlanks(w, post);
    assert Join([w], " ") == w;
  }

  /** A word has nothing to collapse. */
  lemma CollapseWord(w: string)
    requires IsWord(w)
    ensures CollapseSpaces(w) == w
  {
    CollapseAfterWord(w, []);
    assert w + [] == w;
  }

  /** A word followed only by whitespace is the one word. */
  lemma WordThenBlanks(w: string, post: string)
    requires IsWord(w)
    requires forall i :: 0 <= i < |post| ==> IsSpace(post[i])
    ensures Words(w + post) == [w]
  {
    LStripBlank(post);
    assert Words(post) == [];
    WordsAfterWord(w, post);
    assert [w] + [] == [w];
  }

  /** A word, a run of whitespace, then more text: the run becomes one space. */
  lemma WordThenMore(w: string, sp: string, v: string)
    requires IsWord(w) && sp != [] && v != [] && !IsSpace(v[0])
    requires forall i :: 0 <= i < |sp| ==> IsSpace(sp[i])
    requires CollapseSpaces(RStrip(v)) == Join(Words(v), " ")
    ensures CollapseSpaces(RStrip(w + (sp + v))) == Join(Words(w + (sp + v)), " ")
  {
    var rv := RStrip(v);
    var j := Join(Words(v), " ");
    assert Words(w + (sp + v)) == [w] + Words(v) by {
      WordsAfterWord(w, sp + v);
      LStripPadded(sp, v);
      WordsOfLStripped(sp + v);
      assert LStrip(v) == v;
    }
    assert Words(v) != [] by {
      assert LStrip(v) == v;
    }
    assert Join([w] + Words(v), " ") == w + (" " + j) by {
      JoinCons(w, Words(v), " ");
    }
    assert CollapseSpaces(RStrip(w + (sp + v))) == w + (" " + j) by {
      assert rv != [] && rv[0] == v[0] by {
        assert !IsSpace(v[0]);
      }
      assert RStrip(w + (sp + v)) == w + (sp + rv) by {
        RStripAfter(sp, v);
        RStripAfter(w, sp + v);
      }
      CollapseAfterWord(w, sp + rv);
      CollapseRun(sp, rv);
    }
  }

  /** A run of whitespace in front of non-whitespace collapses to one space. */
  lemma CollapseRun(sp: string, t: string)
    requires sp != [] && t != [] && !IsSpace(t[0])
    requires forall i :: 0 <= i < |sp| ==> IsSpace(sp[i])
    ensures CollapseSpaces(sp + t) == " " + CollapseSpaces(t)
  {
    var x := sp + t;
    assert x[0] == sp[0] && IsSpace(x[0]);
    TailOfConcat(sp, t);
    LStripPadded(sp[1..], t);
  }

  lemma TailOfConcat(a: string, b: string)
    requires a != []
    ensures (a + b)[1..] == a[1..] + b
  {
  }

  lemma JoinCons(w: string, ws: seq<string>, sep: string)
    requires ws != []
    ensures Join([w] + ws, sep) == w + (sep + Join(ws, sep))
  {
    assert ([w] + ws)[1..] == ws;
  }

  /**
   * `normalize_spacing(s)` is `" ".join(s.split())`: the words of the input, in order,
   * separated by single spaces, with nothing before or after.
   */
  lemma NormalizeIsJoinWords(s: string)
    ensures NormalizeSpacing(s) == Join(Words(s), " ")
  {
    var t := LStrip(s);
    CollapseIsJoinWords(t);
    WordsOfLStripped(s);
    ReplaceNewlinesIdentity(CollapseSpaces(Strip(s)));
    assert NormalizeSpacing(s) == CollapseSpaces(RStrip(t));
  }

  /** Splitting words joined by single spaces gives back the words. */
  lemma {:induction false} WordsOfJoin(ws: seq<string>)
    requires forall w :: w in ws ==> IsWord(w)
    ensures Words(Join(ws, " ")) == ws
  {
    if ws != [] {
      var w := ws[0];
      assert w in ws;
      var tail := ws[1..];
      HeadTail(ws);
      if tail == [] {
        OneWord(w);
      } else {
        assert forall x :: x in tail ==> x in ws;
        WordsOfJoin(tail);
        assert tail[0] in ws;
        WordThenJoin(w, tail);
      }
    }
  }

  /** A single word, joined, splits back into itself. */
  lemma OneWord(w: string)
    requires IsWord(w)
    ensures Words(Join([w], " ")) == [w]
  {
    assert w + [] == w;
    WordsAfterWord(w, []);
  }

  /** One more word in front of a join of words. */
  lemma WordThenJoin(w: string, tail: seq<string>)
    requires IsWord(w) && tail != [] && IsWord(tail[0])
    requires Words(Join(tail, " ")) == tail
    ensures Words(Join([w] + tail, " ")) == [w] + tail
  {
    var j := Join(tail, " ");
    assert j != [] && !IsSpace(j[0]) by {
      JoinStartsWithWord(tail);
    }
    assert Join([w] + tail, " ") == w + (" " + j) by {
      JoinCons(w, tail, " ");
    }
    WordSpaceWords(w, j);
  }

  /** A word, one space, then text that starts with non-whitespace. */
  lemma WordSpaceWords(w: string, j: string)
    requires IsWord(w) && j != [] && !IsSpace(j[0])
    ensures Words(w + (" " + j)) == [w] + Words(j)
  {
    WordsAfterWord(w, " " + j);
    assert Words(" " + j) == Words(j) by {
      LStripPadded(" ", j);
      WordsOfLStripped(" " + j);
    }
  }

  /** A word followed by whitespace (or nothing) is the first of the words. */
  lemma WordsAfterWord(w: string, rest: string)
    requires IsWord(w)
    requires rest == [] || IsSpace(rest[0])
    ensures Words(w + rest) == [w] + Words(rest)
  {
    var s := w + rest;
    assert s[0] == w[0];
    assert LStrip(s) == s;
    FrontWordOf(w, rest);
    assert s[|w|..] == rest;
  }

  /** The front word of a word followed by whitespace (or nothing) is that word. */
  lemma {:induction false} FrontWordOf(w: string, rest: string)
    requires forall i :: 0 <= i < |w| ==> !IsSpace(w[i])
    requires rest == [] || IsSpace(rest[0])
    ensures FrontWord(w + rest) == w
  {
    if w != [] {
      assert (w + rest)[1..] == w[1..] + rest;
      FrontWordOf(w[1..], rest);
      assert [w[0]] + w[1..] == w;
    } else {
      assert w + rest == rest;
    }
  }

  /** A join of words starts with the first word's first character. */
  lemma JoinStartsWithWord(ws: seq<string>)
    requires ws != [] && IsWord(ws[0])
    ensures Join(ws, " ") != [] && Join(ws, " ")[0] == ws[0][0]
  {
  }

  /** `normalize_spacing` is idempotent. */
  lemma NormalizeIdempotent(s: string)
    ensures NormalizeSpacing(NormalizeSpacing(s)) == NormalizeSpacing(s)
  {
    NormalizeIsJoinWords(s);
    WordsAreWords(s);
    WordsOfJoin(Words(s));
    NormalizeIsJoinWords(NormalizeSpacing(s));
  }

  /** The non-whitespace characters of `s`, in order. */
  function NonSpace(s: string): string {
    if s == [] then [] else (if IsSpace(s[0]) then [] else [s[0]]) + NonSpace(s[1..])
  }

  lemma {:induction false} NonSpaceConcat(a: string, b: string)
    ensures NonSpace(a + b) == NonSpace(a) + NonSpace(b)
  {
    if a != [] {
      assert (a + b)[1..] == a[1..] + b;
      NonSpaceConcat(a[1..], b);
    } else {
      assert a + b == b;
    }
  }

  lemma {:induction false} NonSpaceOfBlanks(s: string)
    requires forall i :: 0 <= i < |s| ==> IsSpace(s[i])
    ensures NonSpace(s) == []
  {
    if s != [] {
      NonSpaceOfBlanks(s[1..]);
    }
  }

  lemma NonSpaceLStrip(s: string)
    ensures NonSpace(LStrip(s)) == NonSpace(s)
  {
    var l := LStrip(s);
    LStripSuffix(s);
    var pre := s[..|s| - |l|];
    assert s == pre + l;
    NonSpaceConcat(pre, l);
    NonSpaceOfBlanks(pre);
  }

  lemma NonSpaceRStrip(s: string)
    ensures NonSpace(RStrip(s)) == NonSpace(s)
  {
    var r := RStrip(s);
    var post := s[|r|..];
    assert s == r + post;
    NonSpaceConcat(r, post);
    NonSpaceOfBlanks(post);
  }

  /** Stripping removes whitespace only. */
  lemma NonSpaceStrip(s: string)
    ensures NonSpace(Strip(s)) == NonSpace(s)
  {
    NonSpaceLStrip(s);
    NonSpaceRStrip(LStrip(s));
  }

  /** Collapsing whitespace runs removes whitespace only. */
  lemma {:induction false} NonSpaceCollapse(s: string)
    ensures NonSpace(CollapseSpaces(s)) == NonSpace(s)
    decreases |s|
  {
    if s != [] {
      if IsSpace(s[0]) {
        var rest := LStrip(s[1..]);
        NonSpaceCollapse(rest);
        NonSpaceLStrip(s[1..]);
        assert NonSpace(" " + CollapseSpaces(rest)) == NonSpace(CollapseSpaces(rest)) by {
          NonSpaceConcat(" ", CollapseSpaces(rest));
        }
      } else {
        NonSpaceCollapse(s[1..]);
        NonSpaceConcat([s[0]], CollapseSpaces(s[1..]));
      }
    }
  }

  /** `normalize_spacing` keeps every non-whitespace character, in order, and adds none. */
  lemma NormalizeKeepsNonSpace(s: string)
    ensures NonSpace(NormalizeSpacing(s)) == NonSpace(s)
  {
    var collapsed := CollapseSpaces(Strip(s));
    ReplaceNewlinesIdentity(collapsed);
    NonSpaceCollapse(Strip(s));
    NonSpaceStrip(s);
  }

  /* ---------------------------------------------------------------------------
   * Error detail truncation (line 45)
   * ------------------------------------------------------------------------- */

  const ErrorDetailLimit: nat := 100

  /** The error text in the 422 detail: at most 100 characters, then "..." when cut. */
  function TruncateError(error: string): (r: string)
    ensures |r| <= ErrorDetailLimit + 3
    ensures |error| <= ErrorDetailLimit ==> r == error
    ensures |error| > ErrorDetailLimit ==>
      |r| == ErrorDetailLimit + 3 && r[..ErrorDetailLimit] == error[..ErrorDetailLimit] && r[ErrorDetailLimit..] == "..."
  {
    if |error| > ErrorDetailLimit then error[..ErrorDetailLimit] + "..." else error
  }

  /** Truncating an already truncated error changes nothing. */
  lemma TruncateErrorIdempotent(error: string)
    ensures TruncateError(TruncateError(error)) == TruncateError(error)
  {
    var r := TruncateError(error);
    if |error| > ErrorDetailLimit {
      assert r[..ErrorDetailLimit] + "..." == r;
    }
  }

  /* ---------------------------------------------------------------------------
   * timestamp_to_seconds (lines 52-54)
   * ------------------------------------------------------------------------- */

  /** Python's `int(s)` on ASCII text: optional surrounding whitespace, an optional sign, digits. */
  function ParseInt(s: string): (r: Option<int>)
    ensures r.Some? ==> Strip(s) != []
  {
    ParseSigned(Strip(s))
  }

  /** An optional '+' or '-' followed by a numeral. */
  function ParseSigned(t: string): (r: Option<int>)
    ensures r.Some? ==> t != []
  {
    if t != [] && (t[0] == '+' || t[0] == '-') then
      match ParseNat(t[1..])
      case None => None
      case Some(n) => Some(if t[0] == '-' then -(n as int) else n as int)
    else
      match ParseNat(t)
      case None => None
      case Some(n) => Some(n)
  }

  /** `int(str(i)) == i`. */
  lemma ParseIntOfInt(i: int)
    ensures ParseInt(IntToString(i)) == Some(i)
  {
    if i < 0 {
      ParseIntOfNegative(i);
    } else {
      ParseIntOfNat(i);
    }
  }

  lemma ParseIntOfNat(n: nat)
    ensures ParseInt(IntToString(n)) == Some(n)
  {
    var digits := NatToString(n);
    assert IntToString(n) == digits;
    DigitNotSpace(digits[0]);
    DigitNotSpace(digits[|digits| - 1]);
    StripTrimmed(digits);
    NatRoundTrip(n);
  }

  lemma ParseIntOfNegative(i: int)
    requires i < 0
    ensures ParseInt(IntToString(i)) == Some(i)
  {
    NegativeNumeralTrimmed(i);
    ParseSignedNegative(i);
  }

  lemma NegativeNumeralTrimmed(i: int)
    requires i < 0
    ensures Strip(IntToString(i)) == IntToString(i)
  {
    var s := IntToString(i);
    var digits := NatToString(-i);
    assert s[0] == '-';
    assert s[|s| - 1] == digits[|digits| - 1];
    DigitNotSpace(digits[|digits| - 1]);
    StripTrimmed(s);
  }

  lemma ParseSignedNegative(i: int)
    requires i < 0
    ensures ParseSigned(IntToString(i)) == Some(i)
  {
    var s := IntToString(i);
    assert s[0] == '-' && s[1..] == NatToString(-i);
    NatRoundTrip(-i);
  }

  /**
   * `timestamp_to_seconds`: three ':'-separated integer fields, read as hours, minutes
   * and seconds. Any other shape raises `ValueError`, modelled as `Err`.
   */
  function TimestampToSeconds(timestamp: string): Result<int> {
    SecondsOfFields(Split(timestamp, ':'))
  }

  /** `h, m, s = map(int, fields)`, then the sum in seconds. */
  function SecondsOfFields(fields: seq<string>): Result<int> {
    if |fields| != 3 then Err("ValueError")
    else
      var h, m, sec := ParseInt(fields[0]), ParseInt(fields[1]), ParseInt(fields[2]);
      if h.Some? && m.Some? && sec.Some? then Ok(h.value * 3600 + m.value * 60 + sec.value)
      else Err("ValueError")
  }

  /** A timestamp without exactly two colons is rejected with `ValueError`. */
  lemma TimestampNeedsTwoColons(timestamp: string)
    requires Count(timestamp, ':') != 2
    ensures TimestampToSeconds(timestamp) == Err("ValueError")
  {
    SplitCount(timestamp, ':');
  }

  /** The parse succeeds exactly when there are two colons and all three fields are integers. */
  lemma TimestampAccepts(timestamp: string)
    ensures var fields := Split(timestamp, ':');
      TimestampToSeconds(timestamp).Ok? <==>
        |fields| == 3 && ParseInt(fields[0]).Some? && ParseInt(fields[1]).Some? && ParseInt(fields[2]).Some?
  {
  }

  /** `timestamp_to_seconds(f"{h}:{m}:{s}") == h*3600 + m*60 + s`, for any integers. */
  lemma TimestampOfFields(h: int, m: int, sec: int)
    ensures var r := TimestampToSeconds(IntToString(h) + [':'] + IntToString(m) + [':'] + IntToString(sec));
      r.Ok? && r.value == h * 3600 + m * 60 + sec
  {
    var a, b, c := IntToString(h), IntToString(m), IntToString(sec);
    FieldsOfInts(h, m, sec);
    ParseIntOfInt(h);
    ParseIntOfInt(m);
    ParseIntOfInt(sec);
    TimestampOfSplit(a + [':'] + b + [':'] + c, a, b, c, h, m, sec);
  }

  lemma FieldsOfInts(h: int, m: int, sec: int)
    ensures var a, b, c := IntToString(h), IntToString(m), IntToString(sec);
      Split(a + [':'] + b + [':'] + c, ':') == [a, b, c]
  {
    NoColonInInt(h);
    NoColonInInt(m);
    NoColonInInt(sec);
    SplitThree(IntToString(h), IntToString(m), IntToString(sec), ':');
  }

  /** Three fields that read as integers give hours, minutes and seconds. */
  lemma TimestampOfSplit(timestamp: string, a: string, b: string, c: string, h: int, m: int, sec: int)
    requires Split(timestamp, ':') == [a, b, c]
    requires ParseInt(a) == Some(h) && ParseInt(b) == Some(m) && ParseInt(c) == Some(sec)
    ensures TimestampToSeconds(timestamp).Ok?
    ensures TimestampToSeconds(timestamp).value == h * 3600 + m * 60 + sec
  {
    var fields := Split(timestamp, ':');
    assert |fields| == 3 && fields[0] == a && fields[1] == b && fields[2] == c;
  }

  lemma NoColonInInt(i: int)
    ensures ':' !in IntToString(i)
  {
    var digits := NatToString(if i < 0 then -i else i);
    assert forall c :: c in digits ==> IsDigit(c);
  }

  /* ---------------------------------------------------------------------------
   * The "Chapters:" section of a video description (lines 73-87)
   * ------------------------------------------------------------------------- */

  /** One entry of `chapters_list`. */
  datatype ChapterData = ChapterData(timeInSecs: int, title: string)

  /** One `re.findall` match: the timestamp group and the title group. */
  datatype ChapterMatch = ChapterMatch(timestamp: string, title: string)

  const ChaptersMarker: string := "Chapters:\n"

  /** The marker starts at position `i` of `d`. */
  predicate MarkerAt(d: string, i: nat) {
    i + |ChaptersMarker| <= |d| && d[i..i + |ChaptersMarker|] == ChaptersMarker
  }

  /** The first position at or after `from` where the marker starts. */
  function FindMarker(d: string, from: nat): (r: Option<nat>)
    ensures r.Some? ==> from <= r.value && MarkerAt(d, r.value)
    ensures r.Some? ==> forall j :: from <= j < r.value ==> !MarkerAt(d, j)
    ensures r.None? ==> forall j :: from <= j ==> !MarkerAt(d, j)
    decreases |d| - from
  {
    if from + |ChaptersMarker| > |d| then None
    else if MarkerAt(d, from) then Some(from)
    else FindMarker(d, from + 1)
  }

  /**
   * `re.search(r"Chapters:\n(.*)$", d, re.DOTALL).group(1)`: the leftmost marker, then
   * everything after it (with DOTALL the greedy group runs to the end of the text).
   */
  function ChaptersSection(description: string): (r: Option<string>)
    ensures r.None? <==> forall j :: !MarkerAt(description, j)
  {
    match FindMarker(description, 0)
    case None => None
    case Some(i) => Some(description[i + |ChaptersMarker|..])
  }

  /** A timestamp group `\d{2}:\d{2}:\d{2}` (ASCII digits). */
  predicate IsClock(ts: string) {
    && |ts| == 8
    && IsDigit(ts[0]) && IsDigit(ts[1]) && ts[2] == ':'
    && IsDigit(ts[3]) && IsDigit(ts[4]) && ts[5] == ':'
    && IsDigit(ts[6]) && IsDigit(ts[7])
  }

  /** `(\d{2}:\d{2}:\d{2})\s(.+)` matches at the front of `s`: '.' is anything but a newline. */
  predicate ChapterMatchAt(s: string) {
    |s| >= 10 && IsClock(s[..8]) && IsSpace(s[8]) && s[9] != '\n'
  }

  /** The length of the first line of `s`: what a greedy `.+` / `.*` consumes. */
  function LineLength(s: string): (n: nat)
    ensures n <= |s| && (n == |s| || s[n] == '\n')
    ensures forall i :: 0 <= i < n ==> s[i] != '\n'
  {
    if s == [] || s[0] == '\n' then 0 else 1 + LineLength(s[1..])
  }

  /** `re.findall(chapter_pattern, s)`: non-overlapping matches, scanning left to right. */
  function FindChapterMatches(s: string): (ms: seq<ChapterMatch>)
    ensures forall m :: m in ms ==> IsClock(m.timestamp) && m.title != [] && '\n' !in m.title
    decreases |s|
  {
    if |s| < 10 then []
    else if ChapterMatchAt(s) then
      var e := 9 + LineLength(s[9..]);
      assert forall c :: c in s[9..e] ==> c != '\n';
      [ChapterMatch(s[..8], s[9..e])] + FindChapterMatches(s[e..])
    else
      FindChapterMatches(s[1..])
  }

  function DigitValue(c: char): nat
    requires IsDigit(c)
  {
    c as int - '0' as int
  }

  /** The largest value a timestamp group can denote, "99:99:99". */
  const MaxClockSeconds: nat := 99 * 3600 + 99 * 60 + 99

  /** The value of two decimal digits. */
  function PairValue(x: char, y: char): (v: nat)
    requires IsDigit(x) && IsDigit(y)
    ensures v < 100
  {
    DigitValue(x) * 10 + DigitValue(y)
  }

  /** Every matched timestamp parses: `timestamp_to_seconds` never raises inside the comprehension. */
  lemma ClockParses(ts: string)
    requires IsClock(ts)
    ensures TimestampToSeconds(ts).Ok?
    ensures TimestampToSeconds(ts).value
      == PairValue(ts[0], ts[1]) * 3600 + PairValue(ts[3], ts[4]) * 60 + PairValue(ts[6], ts[7])
  {
    ClockFields(ts);
    ShapedClockParses(ts);
  }

  /** Two decimal digits. */
  predicate TwoDigits(f: string) {
    |f| == 2 && IsDigit(f[0]) && IsDigit(f[1])
  }

  /** Three two-digit fields: what splitting a timestamp group on ':' gives. */
  predicate ClockShaped(fields: seq<string>) {
    |fields| == 3 && TwoDigits(fields[0]) && TwoDigits(fields[1]) && TwoDigits(fields[2])
  }

  /** A timestamp whose ':'-fields are three two-digit numbers reads as their weighted sum. */
  lemma ShapedClockParses(ts: string)
    requires ClockShaped(Split(ts, ':'))
    ensures var f := Split(ts, ':');
      && TimestampToSeconds(ts).Ok?
      && TimestampToSeconds(ts).value
        == PairValue(f[0][0], f[0][1]) * 3600 + PairValue(f[1][0], f[1][1]) * 60 + PairValue(f[2][0], f[2][1])
  {
    var f := Split(ts, ':');
    ParseTwoDigits(f[0]);
    ParseTwoDigits(f[1]);
    ParseTwoDigits(f[2]);
  }

  lemma ParseTwoDigits(f: string)
    requires TwoDigits(f)
    ensures ParseInt(f) == Some(PairValue(f[0], f[1]) as int)
  {
    ParseIntOfDisplay(f, f[0], f[1]);
  }

  lemma ParseIntOfDisplay(f: string, x: char, y: char)
    requires IsDigit(x) && IsDigit(y) && f == [x, y]
    ensures ParseInt(f) == Some(PairValue(x, y) as int)
  {
    ParseIntOfPair(x, y);
  }

  /** A timestamp group splits on ':' into its three two-digit fields. */
  lemma ClockFields(ts: string)
    requires IsClock(ts)
    ensures Split(ts, ':') == [[ts[0], ts[1]], [ts[3], ts[4]], [ts[6], ts[7]]]
    ensures ClockShaped(Split(ts, ':'))
  {
    var h1, h2, m1, m2, s1, s2 := ts[0], ts[1], ts[3], ts[4], ts[6], ts[7];
    var a, b, c := [h1, h2], [m1, m2], [s1, s2];
    assert ts == a + [':'] + b + [':'] + c;
    SplitThree(a, b, c, ':');
  }

  /** `int` of two digits. */
  lemma ParseIntOfPair(x: char, y: char)
    requires IsDigit(x) && IsDigit(y)
    ensures ParseInt([x, y]) == Some(PairValue(x, y) as int)
  {
    var d := [x, y];
    PairTrimmed(x, y);
    PairDigitsValue(x, y);
    ParseSignedDigits(d);
  }

  /** Two digits have nothing to strip. */
  lemma PairTrimmed(x: char, y: char)
    requires IsDigit(x) && IsDigit(y)
    ensures Strip([x, y]) == [x, y]
  {
    DigitNotSpace(x);
    DigitNotSpace(y);
    StripTrimmed([x, y]);
  }

  /** Two digits read as a decimal numeral. */
  lemma PairDigitsValue(x: char, y: char)
    requires IsDigit(x) && IsDigit(y)
    ensures IsDigits([x, y]) && DigitsValue([x, y]) == PairValue(x, y)
  {
    var d, e := [x, y], [x];
    assert d[..|d| - 1] == e;
    assert e[..|e| - 1] == [];
    assert DigitsValue(e) == DigitValue(x);
  }

  lemma ParseSignedDigits(d: string)
    requires d != [] && IsDigits(d)
    ensures ParseSigned(d) == Some(DigitsValue(d) as int)
  {
    assert IsDigit(d[0]);
  }

  /** The comprehension over the matches: seconds from the timestamp, the title stripped. */
  function ChaptersOf(ms: seq<ChapterMatch>): (cs: seq<ChapterData>)
    requires forall m :: m in ms ==> IsClock(m.timestamp)
    ensures |cs| == |ms|
  {
    if ms == [] then []
    else
      ClockParses(ms[0].timestamp);
      [ChapterData(TimestampToSeconds(ms[0].timestamp).value, Strip(ms[0].title))] + ChaptersOf(ms[1..])
  }

  /** The first chapter is read from the first match. */
  lemma ChaptersOfHead(ms: seq<ChapterMatch>)
    requires forall m :: m in ms ==> IsClock(m.timestamp)
    requires ms != []
    ensures TimestampToSeconds(ms[0].timestamp).Ok?
    ensures ChaptersOf(ms)[0] == ChapterData(TimestampToSeconds(ms[0].timestamp).value, Strip(ms[0].title))
  {
    assert ms[0] in ms;
    ClockParses(ms[0].timestamp);
  }

  /** Every later chapter is read from the rest of the matches. */
  lemma ChaptersOfTail(ms: seq<ChapterMatch>, i: nat)
    requires forall m :: m in ms ==> IsClock(m.timestamp)
    requires 0 < i < |ms|
    ensures ChaptersOf(ms)[i] == ChaptersOf(ms[1..])[i - 1]
  {
  }

  /** The chapter list `get_video_metadata` builds from a description. */
  function ExtractChapters(description: string): (cs: seq<ChapterData>)
    ensures (forall j :: !MarkerAt(description, j)) ==> cs == []
    ensures forall c :: c in cs ==> 0 <= c.timeInSecs <= MaxClockSeconds && Trimmed(c.title)
  {
    match ChaptersSection(description)
    case None => []
    case Some(section) =>
      var cs := ChaptersOf(FindChapterMatches(Strip(section)));
      ChaptersBounded(FindChapterMatches(Strip(section)));
      cs
  }

  /** Every extracted chapter starts at most at 99:99:99 and has a stripped title. */
  lemma {:induction false} ChaptersBounded(ms: seq<ChapterMatch>)
    requires forall m :: m in ms ==> IsClock(m.timestamp)
    ensures forall c :: c in ChaptersOf(ms) ==> 0 <= c.timeInSecs <= MaxClockSeconds && Trimmed(c.title)
  {
    if ms != [] {
      assert ms[0] in ms;
      ChapterBounded(ms[0]);
      assert forall m :: m in ms[1..] ==> m in ms;
      ChaptersBounded(ms[1..]);
    }
  }

  lemma ChapterBounded(m: ChapterMatch)
    requires IsClock(m.timestamp)
    ensures TimestampToSeconds(m.timestamp).Ok? && 0 <= TimestampToSeconds(m.timestamp).value <= MaxClockSeconds
  {
    ClockParses(m.timestamp);
  }

  /* ---------------------------------------------------------------------------
   * Round trip: a description written in the expected shape gives back its chapters
   * ------------------------------------------------------------------------- */

  /** `n` as two digits, with a leading zero below ten. */
  function Pad2(n: nat): (s: string)
    requires n < 100
    ensures TwoDigits(s) && PairValue(s[0], s[1]) == n
  {
    [DigitChar(n / 10), DigitChar(n % 10)]
  }

  /** `HH:MM:SS` for a time below 100 hours. */
  function ClockText(t: nat): (ts: string)
    requires t < 360000
    ensures IsClock(ts)
    ensures PairValue(ts[0], ts[1]) * 3600 + PairValue(ts[3], ts[4]) * 60 + PairValue(ts[6], ts[7]) == t
  {
    var r := t % 3600;
    ClockDigits(t, t / 3600, r, r / 60, r % 60);
    var h, m, sec := Pad2(t / 3600), Pad2(r / 60), Pad2(r % 60);
    var ts := h + [':'] + m + [':'] + sec;
    assert ts[0] == h[0] && ts[1] == h[1] && ts[3] == m[0] && ts[4] == m[1] && ts[6] == sec[0] && ts[7] == sec[1];
    ts
  }

  /** Hours, minutes and seconds of a time below 100 hours, each below 100. */
  lemma ClockDigits(t: nat, h: nat, r: nat, m: nat, sec: nat)
    requires t < 360000 && h == t / 3600 && r == t % 3600 && m == r / 60 && sec == r % 60
    ensures h < 100 && m < 60 && sec < 60 && h * 3600 + m * 60 + sec == t
  {
  }

  /** The chapters a description can list: under 100 hours, a one-line stripped title. */
  predicate Listable(c: ChapterData) {
    0 <= c.timeInSecs < 360000 && c.title != [] && Trimmed(c.title) && '\n' !in c.title
  }

  /** One line of the "Chapters:" section. */
  function ChapterLine(c: ChapterData): (line: string)
    requires Listable(c)
    ensures line != [] && !IsSpace(line[0]) && !IsSpace(line[|line| - 1])
  {
    var ts := ClockText(c.timeInSecs);
    DigitNotSpace(ts[0]);
    EndsAround(ts, ' ', c.title);
    ts + [' '] + c.title
  }

  /** The first and last characters of `a`, a separator, then `b`. */
  lemma EndsAround(a: string, sep: char, b: string)
    requires a != [] && b != []
    ensures var s := a + [sep] + b;
      s[0] == a[0] && s[|s| - 1] == b[|b| - 1]
  {
  }

  /** The section: one line per chapter, separated by newlines. */
  function ChaptersText(cs: seq<ChapterData>): (text: string)
    requires forall c :: c in cs ==> Listable(c)
    ensures Trimmed(text) && (cs != [] ==> text != [])
  {
    if cs == [] then []
    else if |cs| == 1 then assert cs[0] in cs; ChapterLine(cs[0])
    else
      assert cs[0] in cs;
      assert forall c :: c in cs[1..] ==> c in cs;
      var first, rest := ChapterLine(cs[0]), ChaptersText(cs[1..]);
      EndsAround(first, '\n', rest);
      first + ['\n'] + rest
  }

  /** The greedy `.+` stops exactly at the end of a newline-free title. */
  lemma {:induction false} LineLengthOf(title: string, after: string)
    requires '\n' !in title
    requires after == [] || after[0] == '\n'
    ensures LineLength(title + after) == |title|
  {
    if title != [] {
      assert (title + after)[1..] == title[1..] + after;
      LineLengthOf(title[1..], after);
    }
  }

  /** A chapter line is matched whole, and scanning resumes right behind it. */
  lemma MatchLine(c: ChapterData, after: string)
    requires Listable(c)
    requires after == [] || after[0] == '\n'
    ensures FindChapterMatches(ChapterLine(c) + after)
      == [ChapterMatch(ClockText(c.timeInSecs), c.title)] + FindChapterMatches(after)
  {
    MatchAtFront(ClockText(c.timeInSecs), c.title, after);
  }

  lemma MatchAtFront(ts: string, title: string, after: string)
    requires IsClock(ts) && title != [] && '\n' !in title
    requires after == [] || after[0] == '\n'
    ensures FindChapterMatches(ts + [' '] + title + after) == [ChapterMatch(ts, title)] + FindChapterMatches(after)
  {
    var s := ts + [' '] + title + after;
    LineParts(ts, title, after);
    LineLengthOf(title, after);
  }

  /** Where the pieces of a chapter line sit. */
  lemma LineParts(ts: string, title: string, after: string)
    requires IsClock(ts) && title != [] && '\n' !in title
    ensures var s := ts + [' '] + title + after;
      && ChapterMatchAt(s)
      && s[..8] == ts
      && s[9..] == title + after
      && s[9..9 + |title|] == title
      && s[9 + |title|..] == after
  {
    var s := ts + [' '] + title + after;
    assert s[..8] == ts;
    assert s[8] == ' ';
    assert s[9..] == title + after;
    assert s[9..9 + |title|] == title;
    assert s[9 + |title|..] == after;
  }

  /** A newline is never the start of a match. */
  lemma SkipNewline(rest: string)
    ensures FindChapterMatches(['\n'] + rest) == FindChapterMatches(rest)
  {
    var s := ['\n'] + rest;
    assert s[1..] == rest;
    assert !IsDigit(s[0]);
  }

  /** The matches of a written section: one per chapter, in order. */
  function MatchesOf(cs: seq<ChapterData>): (ms: seq<ChapterMatch>)
    requires forall c :: c in cs ==> Listable(c)
    ensures |ms| == |cs|
    ensures forall m :: m in ms ==> IsClock(m.timestamp)
  {
    if cs == [] then []
    else
      assert cs[0] in cs && Listable(cs[0]);
      assert forall c :: c in cs[1..] ==> c in cs;
      [ChapterMatch(ClockText(cs[0].timeInSecs), cs[0].title)] + MatchesOf(cs[1..])
  }

  lemma {:induction false} FindMatchesOfText(cs: seq<ChapterData>)
    requires forall c :: c in cs ==> Listable(c)
    ensures FindChapterMatches(ChaptersText(cs)) == MatchesOf(cs)
  {
    if cs == [] {
    } else if |cs| == 1 {
      assert cs[0] in cs;
      MatchLine(cs[0], []);
      assert ChapterLine(cs[0]) + [] == ChapterLine(cs[0]);
    } else {
      assert cs[0] in cs;
      assert forall c :: c in cs[1..] ==> c in cs;
      var rest := ChaptersText(cs[1..]);
      MatchLine(cs[0], ['\n'] + rest);
      assert ChapterLine(cs[0]) + ['\n'] + rest == ChapterLine(cs[0]) + (['\n'] + rest);
      SkipNewline(rest);
      FindMatchesOfText(cs[1..]);
    }
  }

  lemma {:induction false} ChaptersOfMatches(cs: seq<ChapterData>)
    requires forall c :: c in cs ==> Listable(c)
    ensures ChaptersOf(MatchesOf(cs)) == cs
  {
    if cs != [] {
      assert cs[0] in cs;
      assert forall d :: d in cs[1..] ==> d in cs;
      var ms := MatchesOf(cs);
      var c := cs[0];
      assert ms[0] == ChapterMatch(ClockText(c.timeInSecs), c.title);
      assert ms[1..] == MatchesOf(cs[1..]);
      ChapterOfMatch(c);
      ChaptersOfCons(ms, c);
      ChaptersOfMatches(cs[1..]);
      HeadTail(cs);
    }
  }

  /** The first match read as `c` puts `c` in front of the chapters of the other matches. */
  lemma ChaptersOfCons(ms: seq<ChapterMatch>, c: ChapterData)
    requires ms != [] && forall m :: m in ms ==> IsClock(m.timestamp)
    requires TimestampToSeconds(ms[0].timestamp).Ok?
    requires TimestampToSeconds(ms[0].timestamp).value == c.timeInSecs
    requires Strip(ms[0].title) == c.title
    ensures ChaptersOf(ms) == [c] + ChaptersOf(ms[1..])
  {
  }

  /** A written chapter line reads back as the chapter. */
  lemma ChapterOfMatch(c: ChapterData)
    requires Listable(c)
    ensures TimestampToSeconds(ClockText(c.timeInSecs)).Ok?
    ensures TimestampToSeconds(ClockText(c.timeInSecs)).value == c.timeInSecs
    ensures Strip(c.title) == c.title
  {
    ClockParses(ClockText(c.timeInSecs));
    StripTrimmed(c.title);
  }

  /** A marker that fits inside `x` is seen the same way in `x + y`. */
  lemma MarkerInPrefix(x: string, y: string, j: nat)
    requires j + |ChaptersMarker| <= |x|
    ensures MarkerAt(x + y, j) == MarkerAt(x, j)
  {
    assert (x + y)[j..j + |ChaptersMarker|] == x[j..j + |ChaptersMarker|];
  }

  /** The section found is everything behind the first "Chapters:" line. */
  lemma SectionAfterMarker(prefix: string, text: string)
    requires forall j :: 0 <= j < |prefix| ==> !MarkerAt(prefix + ChaptersMarker, j)
    ensures ChaptersSection(prefix + ChaptersMarker + text) == Some(text)
  {
    var d := prefix + ChaptersMarker + text;
    assert d[|prefix|..|prefix| + |ChaptersMarker|] == ChaptersMarker;
    assert MarkerAt(d, |prefix|);
    forall j | 0 <= j < |prefix|
      ensures !MarkerAt(d, j)
    {
      MarkerInPrefix(prefix + ChaptersMarker, text, j);
    }
    assert d[|prefix| + |ChaptersMarker|..] == text;
  }

  /**
   * Writing chapters under a "Chapters:" line (with no earlier such line) and extracting
   * them again gives back exactly the chapters written.
   */
  lemma ChaptersRoundTrip(prefix: string, cs: seq<ChapterData>)
    requires forall c :: c in cs ==> Listable(c)
    requires forall j :: 0 <= j < |prefix| ==> !MarkerAt(prefix + ChaptersMarker, j)
    ensures ExtractChapters(prefix + ChaptersMarker + ChaptersText(cs)) == cs
  {
    var text := ChaptersText(cs);
    SectionAfterMarker(prefix, text);
    StripTrimmed(text);
    FindMatchesOfText(cs);
    ChaptersOfMatches(cs);
  }

  /* ---------------------------------------------------------------------------
   * Usage counters (lines 15, 104-119 and 135-151)
   * ------------------------------------------------------------------------- */

  /** `RATE_LIMIT`: requests one client address may make. */
  const RateLimit: int := 2

  /** The default `limit` of `check_and_update_api_usage`. */
  const DefaultApiLimit: int := 2

  /** The one row of the `api_usage` table that is used. */
  const ApiUsageId: int := 1

  /** The header the tunnel puts the client address in. */
  const ClientIpHeader: string := "cf-connecting-ip"

  /** `total_hits` of the usage row, if there is one. */
  function Hits(apiUsage: map<int, int>): Option<int> {
    if ApiUsageId in apiUsage then Some(apiUsage[ApiUsageId]) else None
  }

  /** Whether one more model call is allowed: always without a row, else below the limit. */
  predicate Admits(apiUsage: map<int, int>, limit: int) {
    match Hits(apiUsage)
    case None => true
    case Some(h) => h < limit
  }

  /** The table after one call of `check_and_update_api_usage`. */
  function UsageAfter(apiUsage: map<int, int>, limit: int): (t: map<int, int>)
    ensures Admits(apiUsage, limit) ==> Hits(t) == Some(match Hits(apiUsage) case None => 1 case Some(h) => h + 1)
    ensures !Admits(apiUsage, limit) ==> t == apiUsage
    ensures forall id :: id != ApiUsageId ==> (id in t <==> id in apiUsage)
    ensures forall id :: id != ApiUsageId && id in t ==> t[id] == apiUsage[id]
  {
    if Admits(apiUsage, limit) then
      apiUsage[ApiUsageId := match Hits(apiUsage) case None => 1 case Some(h) => h + 1]
    else apiUsage
  }

  /** How many of `n` successive calls are allowed. */
  function AdmittedCalls(apiUsage: map<int, int>, limit: int, n: nat): nat
    decreases n
  {
    if n == 0 then 0
    else (if Admits(apiUsage, limit) then 1 else 0) + AdmittedCalls(UsageAfter(apiUsage, limit), limit, n - 1)
  }

  /** The number of calls the counter still allows. */
  function Budget(apiUsage: map<int, int>, limit: int): nat {
    match Hits(apiUsage)
    case None => if limit > 1 then limit else 1
    case Some(h) => if h < limit then limit - h else 0
  }

  /**
   * Out of `n` successive calls exactly `min(n, budget)` are allowed: with an existing row,
   * `limit - total_hits` more; without one the first call is always allowed, then up to `limit`.
   */
  lemma {:induction false} AdmittedIsBudget(apiUsage: map<int, int>, limit: int, n: nat)
    ensures AdmittedCalls(apiUsage, limit, n) == if n < Budget(apiUsage, limit) then n else Budget(apiUsage, limit)
    decreases n
  {
    if n > 0 {
      var next := UsageAfter(apiUsage, limit);
      AdmittedIsBudget(next, limit, n - 1);
      if Admits(apiUsage, limit) {
        assert Budget(next, limit) == Budget(apiUsage, limit) - 1;
      } else {
        assert Budget(apiUsage, limit) == 0;
      }
    }
  }

  /** The `api_usage` and `rate_limits` tables, as far as the two counter rules use them. */
  class UsageTables {
    /** `api_usage`: row id to `total_hits`. */
    var apiUsage: map<int, int>
    /** `rate_limits`: client address to `count`. */
    var rateLimits: map<string, int>

    constructor(apiUsage: map<int, int>, rateLimits: map<string, int>)
      ensures this.apiUsage == apiUsage && this.rateLimits == rateLimits
    {
      this.apiUsage := apiUsage;
      this.rateLimits := rateLimits;
    }

    /**
     * `check_and_update_api_usage`: without a row, insert `total_hits = 1` and allow; at or
     * above the limit, refuse and write nothing; otherwise write `total_hits + 1` and allow.
     */
    method CheckAndUpdateApiUsage(limit: int) returns (allowed: bool)
      modifies this
      ensures allowed == Admits(old(apiUsage), limit)
      ensures apiUsage == UsageAfter(old(apiUsage), limit)
      ensures rateLimits == old(rateLimits)
    {
      if ApiUsageId in apiUsage {
        var totalHits := apiUsage[ApiUsageId];
        if totalHits >= limit {
          return false;
        }
        totalHits := totalHits + 1;
        apiUsage := apiUsage[ApiUsageId := totalHits];
      } else {
        apiUsage := apiUsage[ApiUsageId := 1];
      }
      return true;
    }

    /**
     * `user_rate_limit_exceeded`: no (or an empty) client address counts as exceeded; an
     * address without a row fails indexing `result.data[0]` (`IndexError`); otherwise the
     * limit is exceeded once `count` reaches `RATE_LIMIT`. `headers` holds the
     * lower-cased header names the ASGI server delivers, which is what makes Starlette's
     * case-insensitive `headers.get` an exact lookup here.
     */
    method UserRateLimitExceeded(headers: map<string, string>) returns (r: Result<bool>)
      ensures ClientIpHeader !in headers || headers[ClientIpHeader] == [] ==> r == Ok(true)
      ensures ClientIpHeader in headers && headers[ClientIpHeader] != [] ==> (
        var ip := headers[ClientIpHeader];
        && (ip !in rateLimits <==> r.Err?)
        && (ip in rateLimits ==> r == Ok(rateLimits[ip] >= RateLimit)))
    {
      if ClientIpHeader !in headers || headers[ClientIpHeader] == [] {
        return Ok(true);
      }
      var ip := headers[ClientIpHeader];
      if ip !in rateLimits {
        return Err("IndexError");
      }
      var count := rateLimits[ip];
      return Ok(count >= RateLimit);
    }
  }
}
